=== FILE: README.md ===
# Seagull access control, modelled in Dafny

Seagull is a community service whose users join *islands*. This project models how it
controls access:

- `IslandController` (its actions other than file uploads). These actions list, show,
  create and edit islands, and they generate, list, delete and redeem invite links. The
  model covers them with the `IslandInviteLink` and `UserIsland` records.
- `AuthController` with `TokenService`. These handle registration, login and token
  refresh. They issue a signed JWT access token and a random refresh token.
- `UserController` search and profile endpoints.

Files:

- `http.dfy`: the shared `Option` type, the `Response` outcomes and the tick constant.
  `Ok`, `Unauthorized`, `NotFound`, `Forbid` and `BadRequest` are the HTTP results the
  actions return. `Fault` is an exception that escapes an action (HTTP 500). Instants are
  `DateTime` ticks.
- `invites.dfy`: the invite link and the membership records, the "working" filter, and the
  remaining-usages arithmetic.
- `islands.dfy`: class `Ledger`. It holds the islands, links and memberships the
  controller's database context changes in place. Each controller action is a method or
  function on it. The file also has client scenarios that run actions one after another.
- `identity.dfy`: class `UserManager`. It is the part of the identity store the controllers
  use: users indexed by id, name and email, password hashes and roles.
- `tokens.dfy`: `TokenService`.
  - Claims travel in the token as a flat list of strings, with a proved round trip.
  - Signing is symbolic. A signature is a term that records the key, the algorithm, the
    issuer, the audience, the expiry and the payload.
  - The refresh token is the base64 text of the random bytes, following section 4 of
    RFC 4648.
- `auth.dfy`: the three authentication actions and scenarios that chain them.
- `users.dfy`: the search with its guard, branch priority and paging, plus the profile
  reads and edits.

Inputs from the environment are parameters:

- the current user (`caller`, `None` when the identifier claim resolves to nobody)
- the clock (`now`)
- the invite-key generator (a fresh `key`) and the GUID generator (a fresh `jti` or id)
- the random bytes
- a choice of which database save throws (`StoreFault`)

Behaviours of the code that look unintended, which the model keeps as written:

- `GenerateInvite` calls `AddDays`, `AddHours` and `AddMinutes` and drops their results.
  So a timed link's deadline is the instant it was generated, and the link stops working
  one tick later (`TimedInviteLapsesAtOnce`). The calls still throw when the sum leaves the
  range of `DateTime`, and the request then fails with no link stored
  (`HugeDurationsOverflow`).
- Search computes its offset `(page - 1) * size` in unchecked 32-bit arithmetic. Large
  pages wrap around, for example to the first page (`LargePageWrapsToFirstPage`), or to a
  negative offset that the database refuses (`OverflowingOffsetFaults`).
- The cap check in the working-links filter uses `>`: a link whose use count has reached
  its cap is still listed (`CapReachedStillWorks`). Redemption consults the link's
  `Expired` property instead, which is not part of this model. Under the assumption that
  `Expired` is the negation of the listing filter, a cap of k admits k + 1 redemptions
  (`SingleUseInviteAdmitsTwo`, `RedemptionKeepsWithinCap`).
- `ListWorkingInvites` checks ownership of the island in the route but lists working links
  of every island (`ListingSpansIslands`).
- `DeleteInvite` deletes any link by its ticket (`DeleteForeignInvite`).
- `UseInvite` does not check membership. A member redeeming again hits the membership key
  in the single save, and the action throws (`SecondRedemptionFaults`).
- A refresh with an access token that fails validation throws inside
  `GetPrincipalFromExpiredToken`. The answer is therefore an exception, not an
  "unauthenticated" result. Refresh never reads the refresh token, beyond
  the request validation that refuses a blank one (`RefreshIgnoresRefreshToken`).
- In search, the first *present* criterion wins, in the order id, email, user name, tag,
  display name. It wins even when it is too short to pass the guard itself
  (`ShortIdShadowsUserName`).
- Profiles report the user name as the display name.
- `EditProfile` answers an unknown user id with `Unauthorized`.

## Model

| member | source | states |
|---|---|---|
| Invites.NewInviteLink | Seagull/Seagull.Core/Entities/General/IslandInviteLink.cs:11-27 | a new link has the given key, island and author; it is effective from its construction instant; it has no deadline, no cap and zero uses |
| Invites.Working | Seagull/Seagull.API/Controllers/IslandController.cs:223 | a link works iff its deadline, if any, has not passed and its usages left, if capped, are not negative |
| Invites.Expired | Seagull/Seagull.API/Controllers/IslandController.cs:263 | a link is expired iff its deadline has passed or its usages left are negative; only a bounded link can expire |
| Invites.UsagesLeft | Seagull/Seagull.API/Controllers/IslandController.cs:223-229 | usages left is absent exactly when there is no cap; otherwise it is the cap minus the count |
| Invites.UnboundedLinkNeverLapses | Seagull/Seagull.API/Controllers/IslandController.cs:223 | a link with no deadline and no cap works at every instant and never counts as expired, whatever its use count |
| Invites.CapReachedStillWorks | Seagull/Seagull.API/Controllers/IslandController.cs:223 | a link whose count equals its cap still works, and it stops working only once the count exceeds the cap |
| Invites.WorkingLinkHasUsagesLeft | Seagull/Seagull.API/Controllers/IslandController.cs:223-228 | every listed working link reports a non-negative number of usages left |
| Invites.RedemptionKeepsWithinCap | Seagull/Seagull.API/Controllers/IslandController.cs:263-272 | redeeming a link that is not expired keeps its use count at most one above its cap |
| Islands.InviteDeadline | Seagull/Seagull.API/Controllers/IslandController.cs:106-115 | a deadline is set exactly when some duration component is given, and it equals the generation instant |
| Islands.TimedInviteLapsesAtOnce | Seagull/Seagull.API/Controllers/IslandController.cs:106-118 | a link generated with any duration no longer works at any later instant |
| Islands.DayAndTwoHoursGiveNoExtension | Seagull/Seagull.API/Controllers/IslandController.cs:107-108 | one day and two hours give the generation instant as the deadline, not 26 hours later |
| Islands.HugeDurationsOverflow | Seagull/Seagull.API/Controllers/IslandController.cs:107-109 | three million days after the year 2000, or minus twenty million hours before the year 2200, cannot be added to the clock reading |
| Islands.ModestDurationsFit | Seagull/Seagull.API/Controllers/IslandController.cs:107-109 | durations of up to a year, requested before the year 9000, never overflow |
| Islands.Ledger.ListMyIslands | Seagull/Seagull.API/Controllers/IslandController.cs:31-56 | Unauthorized without a caller; otherwise an island is listed iff the caller holds a membership of it |
| Islands.Ledger.GetIsland | Seagull/Seagull.API/Controllers/IslandController.cs:58-90 | NotFound iff the island does not exist; otherwise the island and exactly the users holding a membership of it |
| Islands.Ledger.GenerateInvite | Seagull/Seagull.API/Controllers/IslandController.cs:92-129 | Unauthorized, NotFound or Forbid in that order, changing nothing; for an owner, a Fault with nothing stored when a duration component cannot be added to the clock reading (`DurationOverflows`, one `OutOfRange` test per component); otherwise exactly one new link with the caller as author, the deadline above, the requested cap and zero uses, answered with its deadline, cap and key |
| Islands.Ledger.CreateIsland | Seagull/Seagull.API/Controllers/IslandController.cs:131-176 | Unauthorized without a caller; when either save throws, a Fault with the store unchanged; otherwise a new island with the next identity value, owned and authored by the caller, who is its only new member |
| Islands.Ledger.EditIsland | Seagull/Seagull.API/Controllers/IslandController.cs:178-209 | Unauthorized, NotFound or Forbid; succeeds iff the caller owns the island, replacing exactly name, description, status and banner colour and keeping id, author, owner and file names |
| Islands.Ledger.ListWorkingInvites | Seagull/Seagull.API/Controllers/IslandController.cs:211-231 | after the ownership check, the answer holds exactly the descriptors of the links that work at `now`, across all islands |
| Islands.Ledger.DeleteInvite | Seagull/Seagull.API/Controllers/IslandController.cs:233-252 | succeeds iff the caller owns the routed island and the ticket exists, removing exactly that link; otherwise nothing changes |
| Islands.Ledger.UseInvite | Seagull/Seagull.API/Controllers/IslandController.cs:254-277 | Unauthorized, NotFound or BadRequest when expired; a Fault for an existing member; otherwise the caller joins the link's island and the link's count rises by one, with nothing else changed; with the assumed `Expired`, every link stays within one use of its cap |
| Islands.SingleUseInviteAdmitsTwo | Seagull/Seagull.API/Controllers/IslandController.cs:254-277 | with a cap of one, the first two fresh users are admitted and the third gets BadRequest |
| Islands.SecondRedemptionFaults | Seagull/Seagull.Core/Entities/Linker/UserIsland.cs:9-16 | a second redemption by the same user throws on the membership key, and the use count stays at one |
| Islands.DeleteForeignInvite | Seagull/Seagull.API/Controllers/IslandController.cs:241-249 | the owner of one island deletes a link belonging to another owner's island |
| Islands.ListingSpansIslands | Seagull/Seagull.API/Controllers/IslandController.cs:223-230 | a working link of another island appears in the listing of an owned island |
| Identity.InsertKeepsIndex | Seagull/Seagull.API/Controllers/AuthController.cs:33 | inserting a user whose id, name and email are new keeps the id, name and email indices consistent |
| Identity.ReplaceKeepsIndex | Seagull/Seagull.API/Controllers/UserController.cs:139 | replacing a record by one with the same id, name and email keeps the store consistent |
| Identity.PasswordsCheckByHash | Seagull/Seagull.API/Controllers/AuthController.cs:47 | once one password checks for a user, exactly the passwords with the same hash check |
| Identity.UserManager.FindByName | Seagull/Seagull.API/Controllers/AuthController.cs:44 | returns the stored user with that name, or none iff no user has it |
| Identity.UserManager.FindByEmail | Seagull/Seagull.API/Controllers/AuthController.cs:45 | returns the stored user with that email, or none iff no user has it |
| Identity.UserManager.CheckPassword | Seagull/Seagull.API/Controllers/AuthController.cs:47 | a password checks only for a user with a stored hash |
| Identity.UserManager.RolesOf | Seagull/Seagull.API/Controllers/AuthController.cs:70 | the role list the store records for the user, and an empty list when it records none; a user with roles is a stored user |
| Identity.UserManager.Create | Seagull/Seagull.API/Controllers/AuthController.cs:33 | succeeds iff name and email are non-empty and free, the id is new and the validators accept; on success it adds the user, both index entries and the password hash; on failure nothing changes |
| Identity.UserManager.Update | Seagull/Seagull.API/Controllers/UserController.cs:139 | replaces one user record and keeps the indices consistent |
| Tokens.DecodeEncode | Seagull/Seagull.API/Services/TokenService.cs:26-35 | `DecodeClaims` of `EncodeClaims` gives back the claims |
| Tokens.EncodeDecode | Seagull/Seagull.API/Services/TokenService.cs:54 | a payload that `DecodeClaims` accepts is the `EncodeClaims` of what it decodes to, so the encoding is one to one |
| Tokens.FindFirst | Seagull/Seagull.API/Controllers/AuthController.cs:58 | the value of the first claim whose type equals the requested one ignoring case, or none iff no claim type does |
| Tokens.ClaimTypeCaseIgnored | Seagull/Seagull.API/Controllers/AuthController.cs:58 | a "Nickname" claim listed before a "nickname" claim is the one a nickname lookup finds |
| Tokens.AccessClaimsShape | Seagull/Seagull.API/Services/TokenService.cs:16-24 | `AccessClaims` puts subject, email, nickname and token id first, then one role claim per role, in order |
| Tokens.NicknameOfAccessClaims | Seagull/Seagull.API/Services/TokenService.cs:16-24 | the first nickname claim of an access token is the user name |
| Tokens.IssueToken | Seagull/Seagull.API/Services/TokenService.cs:26-35 | the token is HS256, carries the configured issuer and audience, expires the configured minutes after `now`, bears the configured key's signature and decodes to exactly the given claims |
| Tokens.GenerateAccessToken | Seagull/Seagull.API/Services/TokenService.cs:14-36 | the token carries the user's claims and one claim per role, and expires the configured number of minutes after `now` under HS256 with the configured key, issuer and audience |
| Tokens.Sextet | Seagull/Seagull.API/Services/TokenService.cs:38 | each six-bit value maps to a base64 character whose value is that number |
| Tokens.Base64Encode | Seagull/Seagull.API/Services/TokenService.cs:38 | 4 characters per started 3-byte group, all from the base64 alphabet or padding |
| Tokens.Base64RoundTrip | Seagull/Seagull.API/Services/TokenService.cs:38 | base64 decoding gives back the encoded bytes |
| Tokens.GenerateRefreshToken | Seagull/Seagull.API/Services/TokenService.cs:38 | 64 random bytes give an 88-character base64 string that decodes back to those bytes |
| Tokens.RefreshTokensDistinct | Seagull/Seagull.API/Services/TokenService.cs:38 | distinct random bytes give distinct refresh tokens |
| Tokens.ValidateIgnoringLifetime | Seagull/Seagull.API/Services/TokenService.cs:42-54 | gives the claims iff the signature verifies under the configured key, issuer and audience, whatever the expiry |
| Tokens.GetPrincipalFromExpiredToken | Seagull/Seagull.API/Services/TokenService.cs:40-63 | gives claims only when the token validates and its algorithm equals HS256 under `EqualsIgnoreCase` |
| Tokens.IssuedTokenRecoversClaims | Seagull/Seagull.API/Services/TokenService.cs:40-63 | a token issued under the configuration gives back exactly its claims at any later instant |
| Tokens.AlgorithmCheck | Seagull/Seagull.API/Services/TokenService.cs:56-60 | the algorithm comparison ignores case only: "hs256" passes, while tokens whose header says "none" or "HS384" are refused |
| Tokens.UnsignedTokenRefused | Seagull/Seagull.API/Services/TokenService.cs:42-54 | a token without a signature is refused |
| Auth.GenerateAuthResponse | Seagull/Seagull.API/Controllers/AuthController.cs:68-75 | an access token for the user's current roles and an 88-character refresh token |
| Auth.LoginTarget | Seagull/Seagull.API/Controllers/AuthController.cs:44-45 | the user with that user name; only when there is none, the user with that email; none iff neither exists |
| Auth.Register | Seagull/Seagull.API/Controllers/AuthController.cs:22-38 | succeeds iff the store accepts the user with tag equal to the display name; on success exactly the user, its two index entries and its password hash are added, roles are unchanged, and tokens with no roles are returned; otherwise BadRequest and nothing changes |
| Auth.Login | Seagull/Seagull.API/Controllers/AuthController.cs:40-52 | succeeds iff the login names a user whose password matches, answering with tokens for that user; otherwise Unauthorized |
| Auth.Refresh | Seagull/Seagull.API/Controllers/AuthController.cs:54-66 | a token that fails validation gives a Fault; a missing or empty nickname, or an unknown name, gives Unauthorized; otherwise tokens for the user of that name |
| Auth.LoginThenRefresh | Seagull/Seagull.API/Controllers/AuthController.cs:40-66 | after a successful login, refreshing its access token at any later instant succeeds, for the same subject and with the roles stored then |
| Auth.RefreshIgnoresRefreshToken | Seagull/Seagull.API/Controllers/AuthController.cs:54-66 | two refresh requests that differ only in the refresh token get the same answer, among requests whose refresh token is not blank (a blank one is refused before the action runs) |
| Auth.ForeignTokenFaults | Seagull/Seagull.API/Controllers/AuthController.cs:57 | a refresh with a token signed under another key throws |
| Auth.RegisterThenLogin | Seagull/Seagull.API/Controllers/AuthController.cs:22-52 | right after a successful registration, logging in with the same user name and password succeeds |
| Users.FirstWhere | Seagull/Seagull.API/Controllers/UserController.cs:49 | the first user in table order that satisfies the predicate, or none iff no user does |
| Users.GuardPasses | Seagull/Seagull.API/Controllers/UserController.cs:41-45 | a query passes the guard only when some criterion is present |
| Users.Where | Seagull/Seagull.API/Controllers/UserController.cs:60-61 | exactly the users that satisfy the predicate, drawn from the table |
| Users.Page | Seagull/Seagull.API/Controllers/UserController.cs:62-63 | at most `take` elements, those that follow the first `skip` |
| Users.PrefixPage | Seagull/Seagull.API/Controllers/UserController.cs:59-79 | exactly min(take, matches - skip) users, none when skip passes the end, each a table user whose field starts with the query, ignoring case |
| Users.PrefixPageIsSliceOfMatches | Seagull/Seagull.API/Controllers/UserController.cs:59-65 | the i-th listed user is match number skip + i |
| Users.Wrap32 | Seagull/Seagull.API/Controllers/UserController.cs:62 | the result lies in the 32-bit range, differs from the input by a multiple of 2^32, and equals the input when that already fits |
| Users.PageOffset | Seagull/Seagull.API/Controllers/UserController.cs:62 | the offset is the 32-bit value congruent to (page - 1) * size modulo 2^32, so it equals that product whenever it fits in 32 bits and wraps otherwise |
| Users.PrefixSearch | Seagull/Seagull.API/Controllers/UserController.cs:59-65 | a Fault iff the wrapped offset or the size is negative; otherwise the page of prefix matches at that offset, at most `size` long |
| Users.LargePageWrapsToFirstPage | Seagull/Seagull.API/Controllers/UserController.cs:59-65 | page 65537 of size 65536 answers exactly as page 1 |
| Users.OverflowingOffsetFaults | Seagull/Seagull.API/Controllers/UserController.cs:59-65 | page 3 of size 2^30 wraps to a negative offset, and the request fails |
| Users.PageZeroFaults | Seagull/Seagull.API/Controllers/UserController.cs:59-65 | page 0 with a positive size fails |
| Users.SearchUsers | Seagull/Seagull.API/Controllers/UserController.cs:30-82 | an empty answer iff no criterion is long enough; otherwise the first present criterion decides: an id or email lookup giving the first match in table order (NotFound iff nobody matches), or a prefix page at the 32-bit offset, failing iff that offset or the size is negative; never BadRequest |
| Users.ShortIdShadowsUserName | Seagull/Seagull.API/Controllers/UserController.cs:41-52 | a two-character id with a long user name is answered by the id lookup |
| Users.Edited | Seagull/Seagull.API/Controllers/UserController.cs:135-137 | only display name, banner colour and status change; identity, name, email, tag and images stay |
| Users.ProfileOf | Seagull/Seagull.API/Controllers/UserController.cs:93-103 | the profile copies id, email, user name, tag, avatar, banner and banner colour, reports the user name as display name, and carries the given roles |
| Users.GetMyProfile | Seagull/Seagull.API/Controllers/UserController.cs:84-104 | Unauthorized iff the caller is unknown; otherwise the caller's profile, with every copied field, the user name as display name and the caller's roles |
| Users.GetProfile | Seagull/Seagull.API/Controllers/UserController.cs:106-126 | NotFound iff the id is unknown; otherwise that user's profile, with every copied field, and roles |
| Users.EditProfileSelf | Seagull/Seagull.API/Controllers/UserController.cs:128-154 | Unauthorized iff the caller is unknown; otherwise the caller's record is edited and the fresh profile returned; names, emails, roles and passwords stay |
| Users.EditProfile | Seagull/Seagull.API/Controllers/UserController.cs:156-182 | Unauthorized iff the id is unknown; otherwise that record is edited and the fresh profile returned; nothing else changes |

## Left out

- Logo, banner and avatar uploads and downloads, and the S3 storage behind them. These are
  file handling, outside the access-control core.
- Route and role attributes and the middleware wiring. `[Authorize]` appears as the
  `caller` parameter. The administrator role required by `EditProfile` is enforced by the
  framework before the action runs, and it is not modelled.
- Request validation. The controllers are API controllers, so the data annotations on the
  request types answer 400 before any action runs:
  - a missing or blank island name on create and edit (`[Required]`);
  - a missing or blank login, password, access token or refresh token;
  - on registration, a blank email, display name or user name, an email that is not an
    email address, or a password outside 4 to 100 characters.
  The modelled actions begin after this check, so their string inputs are taken as already
  validated. For example, an owner who edits with an empty name gets 400 from the service,
  while `Islands.Ledger.EditIsland` answers Ok, and `Auth.Login` answers Unauthorized to an
  empty login.
- The identity store's internals: name and email normalisation, the password hasher (the
  `hash` parameter) and the user and password validators (the `validate` parameter).
  Names and emails are compared exactly.
- Cryptography, the random-number generator and GUID generation. Signatures are symbolic
  terms, and the random bytes and GUIDs are parameters. The JWT library's mapping of
  inbound claim names and its compact serialisation are not modelled. Claims are recovered
  as issued.
- Ordering of the island listing, the member list and the invite listing. The model gives
  these as sets because the source orders them only as the database returns them. Search
  also applies `Skip`/`Take` and `FirstOrDefault` without an ordering. The model takes the
  table order to be the sequence `users`, which is not fixed from one query to the next.
- `GetIsland`: it returns member ids rather than the projected member profiles.
- Islands.Ledger.UseInvite: the use count is an unbounded integer, without the 32-bit
  wrap-around of the source's `int`.
- Users.SearchUsers: the id and email answers, and the listings, serialise the whole
  identity entity. That includes the password hash, the security stamp and the
  concurrency stamp. The model's `User` carries only the fields the controllers read or
  write, so it does not capture what those answers expose. A negative offset or limit is
  modelled as a Fault, because PostgreSQL rejects a negative OFFSET or LIMIT.
- Users.StartsWithIgnoringCase: culture-sensitive lower-casing and prefix comparison are
  the `lower` parameter. The model does not fix them.
- Tokens.EqualsIgnoreCase: case folding covers ASCII letters only. This is enough for the
  algorithm-name comparison and for the claim-type lookup of `FindFirst`, whose types are
  ASCII names.
- Invites.Expired: the link entity's `Expired` property is not part of this model. It is
  taken to be the negation of the listing filter, and `UseInvite` receives it as a
  parameter.
- Islands.Ledger.GenerateInvite: the generated key is a parameter and must not already be
  a link key. The clock reading is a `DateTime` in its range. The request's duration and
  usage components are unbounded integers, because their declared type is not part of
  this model. The range check does not depend on their width.
- Auth.Register: the new user id is a parameter and must be unused.
- Link `EffectiveFrom` and the deadline are read from the clock separately. The model
  treats the two readings as the same instant.
- The invite-link set of the database context and the `EditUserProfileDto` type are not
  part of this model. The model infers their members from their use in the controllers.
- Islands.Ledger.CreateIsland: when the membership save fails, the model rolls back the
  identity counter with the transaction. A database may not reuse that value.
- Concurrent requests. Each action is modelled as one atomic step.
- Login's call to update the user, whose result is ignored. It rewrites the user row with
  a fresh concurrency stamp and re-normalised name and email, none of which the model has.

=== FILE: auth.dfy ===
/** The authentication controller: registration, login and refresh, each answering with a
    fresh access token and a fresh refresh token. */
module Auth {
  import opened Http
  import opened Identity
  import opened Tokens

  datatype RegisterDto = RegisterDto(email: string, displayName: string, userName: string, password: string)
  datatype LoginDto = LoginDto(login: string, password: string)
  datatype RefreshTokenDto = RefreshTokenDto(accessToken: Jwt, refreshToken: string)
  datatype AuthResponse = AuthResponse(accessToken: Jwt, refreshToken: string)

  /** What one request draws from its environment: a fresh token id (a GUID), 64 random
      bytes and the clock reading. */
  datatype Entropy = Entropy(jti: string, random: seq<byte>, now: int)

  /** The answer built for a user with the given roles. */
  function AuthResponseFor(cfg: JwtConfig, u: User, roles: seq<string>, e: Entropy): AuthResponse
    requires |e.random| == 64
  {
    AuthResponse(IssueToken(cfg, AccessClaims(u, e.jti, roles), e.now), GenerateRefreshToken(e.random))
  }

  /** The subject claim of a token this deployment accepts, if it has one. */
  function SubjectOf(cfg: JwtConfig, t: Jwt, now: int): Option<string> {
    var p := GetPrincipalFromExpiredToken(cfg, t, now);
    if p.Some? then FindFirst(p.value, SubClaim) else None
  }

  /** An access token for the user's current roles and a fresh refresh token. */
  method GenerateAuthResponse(um: UserManager, cfg: JwtConfig, u: User, e: Entropy) returns (resp: AuthResponse)
    requires |e.random| == 64
    ensures resp == AuthResponseFor(cfg, u, um.RolesOf(u), e)
    ensures |resp.refreshToken| == 88
  {
    var roles := um.RolesOf(u);
    var access := GenerateAccessToken(cfg, u, roles, e.jti, e.now);
    resp := AuthResponse(access, GenerateRefreshToken(e.random));
  }

  /** The user a login string names: the user with that user name, and only when there is
      none, the user with that email. */
  function LoginTarget(um: UserManager, login: string): (r: Option<User>)
    reads um
    requires um.Valid()
    ensures r.Some? ==> r.value.id in um.users && um.users[r.value.id] == r.value
    ensures (exists id :: id in um.users && um.users[id].userName == login) ==>
              r.Some? && r.value.userName == login
    ensures (forall id :: id in um.users ==> um.users[id].userName != login) ==>
              (r.Some? ==> r.value.email == login) &&
              (r.None? <==> forall id :: id in um.users ==> um.users[id].email != login)
  {
    var byName := um.FindByName(login);
    if byName.Some? then byName else um.FindByEmail(login)
  }

  /** Register a user whose tag is its display name; on success answer with tokens. */
  method Register(um: UserManager, cfg: JwtConfig, dto: RegisterDto, newId: string, e: Entropy)
    returns (r: Response<AuthResponse>)
    requires um.Valid()
    requires newId !in um.users
    requires |e.random| == 64
    modifies um
    ensures um.Valid()
    ensures var u := User(newId, dto.userName, dto.email, dto.displayName, dto.displayName, None, None, None, None);
      && (r.Ok? <==> dto.userName != "" && dto.email != ""
                     && dto.userName !in old(um.byName) && dto.email !in old(um.byEmail)
                     && um.validate(u, dto.password))
      && (!r.Ok? ==> r == BadRequest && unchanged(um))
      && (r.Ok? ==>
            && um.users == old(um.users)[newId := u]
            && um.byName == old(um.byName)[dto.userName := newId]
            && um.byEmail == old(um.byEmail)[dto.email := newId]
            && um.passwordHashes == old(um.passwordHashes)[newId := um.hash(dto.password)]
            && um.roles == old(um.roles)
            && um.CheckPassword(u, dto.password)
            && r.value == AuthResponseFor(cfg, u, [], e))
  {
    var u := User(newId, dto.userName, dto.email, dto.displayName, dto.displayName, None, None, None, None);
    var ok := um.Create(u, dto.password);
    if !ok { return BadRequest; }
    var resp := GenerateAuthResponse(um, cfg, u, e);
    r := Ok(resp);
  }

  /** Look the login string up by user name, then by email, check the password, and answer
      with tokens for that user. */
  method Login(um: UserManager, cfg: JwtConfig, dto: LoginDto, e: Entropy) returns (r: Response<AuthResponse>)
    requires um.Valid()
    requires |e.random| == 64
    ensures r.Ok? || r == Unauthorized
    ensures var target := LoginTarget(um, dto.login);
      && (r.Ok? <==> target.Some? && um.CheckPassword(target.value, dto.password))
      && (r.Ok? ==> r.value == AuthResponseFor(cfg, target.value, um.RolesOf(target.value), e))
  {
    var user := LoginTarget(um, dto.login);
    if user.None? || !um.CheckPassword(user.value, dto.password) {
      return Unauthorized;
    }
    var resp := GenerateAuthResponse(um, cfg, user.value, e);
    r := Ok(resp);
  }

  /** Recover the presented access token's claims (lifetime ignored), take its nickname
      claim, and answer with tokens for the user of that name. The refresh token is not read. */
  method Refresh(um: UserManager, cfg: JwtConfig, dto: RefreshTokenDto, e: Entropy) returns (r: Response<AuthResponse>)
    requires um.Valid()
    requires |e.random| == 64
    ensures var principal := GetPrincipalFromExpiredToken(cfg, dto.accessToken, e.now);
      && (principal.None? ==> r == Fault)
      && (principal.Some? ==>
            var name := FindFirst(principal.value, NicknameClaim);
            && (name.None? || name.value == "" ==> r == Unauthorized)
            && (name.Some? && name.value != "" ==>
                  var user := um.FindByName(name.value);
                  && (user.None? ==> r == Unauthorized)
                  && (user.Some? ==> r == Ok(AuthResponseFor(cfg, user.value, um.RolesOf(user.value), e)))))
  {
    var principal := GetPrincipalFromExpiredToken(cfg, dto.accessToken, e.now);
    if principal.None? { return Fault; }
    var username := FindFirst(principal.value, NicknameClaim);
    if username.None? || username.value == "" { return Unauthorized; }
    var user := um.FindByName(username.value);
    if user.None? { return Unauthorized; }
    var resp := GenerateAuthResponse(um, cfg, user.value, e);
    r := Ok(resp);
  }

  /** The access token from a successful login refreshes, at any later instant, to tokens
      for the same user: same subject, name and email, roles as the store has them then. */
  method LoginThenRefresh(um: UserManager, cfg: JwtConfig, dto: LoginDto, e1: Entropy, e2: Entropy, refreshToken: string)
    returns (login: Response<AuthResponse>, refresh: Response<AuthResponse>)
    requires um.Valid()
    requires |e1.random| == 64 && |e2.random| == 64
    ensures login.Ok? ==> refresh.Ok? && LoginTarget(um, dto.login).Some?
    ensures login.Ok? ==>
      var u := LoginTarget(um, dto.login).value;
      && SubjectOf(cfg, login.value.accessToken, e2.now) == Some(u.id)
      && SubjectOf(cfg, refresh.value.accessToken, e2.now) == Some(u.id)
      && refresh.value == AuthResponseFor(cfg, u, um.RolesOf(u), e2)
  {
    login := Login(um, cfg, dto, e1);
    refresh := Unauthorized;
    if login.Ok? {
      var u := LoginTarget(um, dto.login).value;
      var claims := AccessClaims(u, e1.jti, um.RolesOf(u));
      IssuedTokenRecoversClaims(cfg, claims, e1.now, e2.now);
      NicknameOfAccessClaims(u, e1.jti, um.RolesOf(u));
      var claims2 := AccessClaims(u, e2.jti, um.RolesOf(u));
      IssuedTokenRecoversClaims(cfg, claims2, e2.now, e2.now);
      assert um.FindByName(u.userName) == Some(u);
      refresh := Refresh(um, cfg, RefreshTokenDto(login.value.accessToken, refreshToken), e2);
    }
  }

  /** Two refresh requests that differ only in their refresh token get the same answer. */
  method RefreshIgnoresRefreshToken(um: UserManager, cfg: JwtConfig, access: Jwt, rt1: string, rt2: string, e: Entropy)
    returns (r1: Response<AuthResponse>, r2: Response<AuthResponse>)
    requires um.Valid()
    requires |e.random| == 64
    ensures r1 == r2
  {
    r1 := Refresh(um, cfg, RefreshTokenDto(access, rt1), e);
    r2 := Refresh(um, cfg, RefreshTokenDto(access, rt2), e);
  }

  /** A refresh with a token signed under another key is refused with an exception. */
  method ForeignTokenFaults(um: UserManager, cfg: JwtConfig, other: JwtConfig, claims: seq<Claim>, issuedAt: int, rt: string, e: Entropy)
    returns (r: Response<AuthResponse>)
    requires um.Valid()
    requires |e.random| == 64
    requires other.secretKey != cfg.secretKey
    ensures r == Fault
  {
    r := Refresh(um, cfg, RefreshTokenDto(IssueToken(other, claims, issuedAt), rt), e);
  }

  /** Right after a successful registration, logging in with the same user name and password
      succeeds. */
  method RegisterThenLogin(um: UserManager, cfg: JwtConfig, dto: RegisterDto, newId: string, e1: Entropy, e2: Entropy)
    returns (reg: Response<AuthResponse>, login: Response<AuthResponse>)
    requires um.Valid()
    requires newId !in um.users
    requires |e1.random| == 64 && |e2.random| == 64
    modifies um
    ensures reg.Ok? ==> login.Ok?
  {
    reg := Register(um, cfg, dto, newId, e1);
    if reg.Ok? {
      var u := User(newId, dto.userName, dto.email, dto.displayName, dto.displayName, None, None, None, None);
      assert um.users[newId] == u;
      assert LoginTarget(um, dto.userName) == Some(u);
    }
    login := Login(um, cfg, LoginDto(dto.userName, dto.password), e2);
  }
}

=== FILE: http.dfy ===
/** Values shared by every controller of the model: optional values and action results. */
module Http {

  /** A value that may be absent: a nullable reference or a `Nullable<T>` of the source. */
  datatype Option<+T> = None | Some(value: T)

  /** What a controller action answers. `Fault` stands for an exception that escapes the
      action, which the framework turns into an HTTP 500 answer. */
  datatype Response<+T> =
    | Ok(value: T)
    | Unauthorized
    | NotFound
    | Forbid
    | BadRequest
    | Fault

  /** Instants are `DateTime` ticks: 100 ns each. */
  const TicksPerMinute: int := 600_000_000
  const TicksPerHour: int := 60 * TicksPerMinute
  const TicksPerDay: int := 24 * TicksPerHour

  /** The ticks of `DateTime.MaxValue`; a `DateTime` holds ticks from 0 to this value. */
  const MaxTicks: int := 3_155_378_975_999_999_999
}

=== FILE: identity.dfy ===
/** The credential store the controllers consult: user records indexed by id, user name and
    email, password hashes and role lists. Hashing and the store's own validators are given
    functions; uniqueness of names and emails is kept by the store. */
module Identity {
  import opened Http

  /** The user fields the controllers read or write. */
  datatype User = User(
    id: string,
    userName: string,
    email: string,
    displayName: string,
    tag: string,
    avatarUrl: Option<string>,
    bannerUrl: Option<string>,
    bannerColor: Option<string>,
    status: Option<string>)

  /** Every user is indexed under its name and its email, every index entry leads back to a
      user carrying that name or email, and names and emails are non-empty. */
  ghost predicate IndexValid(users: map<string, User>, byName: map<string, string>, byEmail: map<string, string>) {
    && (forall id :: id in users ==>
          && users[id].id == id
          && users[id].userName != "" && users[id].email != ""
          && users[id].userName in byName && byName[users[id].userName] == id
          && users[id].email in byEmail && byEmail[users[id].email] == id)
    && (forall n :: n in byName ==> byName[n] in users && users[byName[n]].userName == n)
    && (forall e :: e in byEmail ==> byEmail[e] in users && users[byEmail[e]].email == e)
  }

  /** The indices agree with the user records, and only existing users hold roles. */
  ghost predicate StoreValid(users: map<string, User>, byName: map<string, string>, byEmail: map<string, string>,
                             roles: map<string, seq<string>>) {
    IndexValid(users, byName, byEmail) && (forall id :: id in roles ==> id in users)
  }

  /** Inserting a user whose id, name and email are all new keeps the store consistent. */
  lemma InsertKeepsIndex(users: map<string, User>, byName: map<string, string>, byEmail: map<string, string>,
                         roles: map<string, seq<string>>, u: User)
    requires StoreValid(users, byName, byEmail, roles)
    requires u.userName != "" && u.email != ""
    requires u.id !in users && u.userName !in byName && u.email !in byEmail
    ensures StoreValid(users[u.id := u], byName[u.userName := u.id], byEmail[u.email := u.id], roles)
  {
  }

  /** Replacing a user's record by one with the same id, name and email keeps the store
      consistent. */
  lemma ReplaceKeepsIndex(users: map<string, User>, byName: map<string, string>, byEmail: map<string, string>,
                          roles: map<string, seq<string>>, u: User)
    requires StoreValid(users, byName, byEmail, roles)
    requires u.id in users && u.userName == users[u.id].userName && u.email == users[u.id].email
    ensures StoreValid(users[u.id := u], byName, byEmail, roles)
  {
  }

  class UserManager {
    var users: map<string, User>
    /** User name to user id. */
    var byName: map<string, string>
    /** Email to user id; emails are unique in this deployment. */
    var byEmail: map<string, string>
    /** User id to role names, in the store's order. */
    var roles: map<string, seq<string>>
    /** User id to password hash. */
    var passwordHashes: map<string, string>
    /** The password hasher. */
    const hash: string -> string
    /** The store's configurable user and password validators, beyond name and email uniqueness. */
    const validate: (User, string) -> bool

    /** The indices agree with the user records, and only existing users hold roles. */
    ghost predicate Valid()
      reads this
    {
      StoreValid(users, byName, byEmail, roles)
    }

    constructor (hash: string -> string, validate: (User, string) -> bool)
      ensures Valid()
      ensures users == map[] && roles == map[] && passwordHashes == map[]
      ensures this.hash == hash && this.validate == validate
    {
      users, byName, byEmail, roles, passwordHashes := map[], map[], map[], map[], map[];
      this.hash, this.validate := hash, validate;
    }

    /** The user with this exact user name, if any. */
    function FindByName(name: string): (r: Option<User>)
      reads this
      requires Valid()
      ensures r.Some? ==> r.value.id in users && users[r.value.id] == r.value && r.value.userName == name
      ensures r.None? ==> forall id :: id in users ==> users[id].userName != name
    {
      if name in byName then Some(users[byName[name]]) else None
    }

    /** The user with this exact email, if any. */
    function FindByEmail(email: string): (r: Option<User>)
      reads this
      requires Valid()
      ensures r.Some? ==> r.value.id in users && users[r.value.id] == r.value && r.value.email == email
      ensures r.None? ==> forall id :: id in users ==> users[id].email != email
    {
      if email in byEmail then Some(users[byEmail[email]]) else None
    }

    /** The stored hash of the user's password matches the hash of `password`. */
    predicate CheckPassword(u: User, password: string)
      reads this
      ensures CheckPassword(u, password) ==> u.id in passwordHashes
    {
      u.id in passwordHashes && passwordHashes[u.id] == hash(password)
    }

    /** The user's role names; a user without roles has none. */
    function RolesOf(u: User): (r: seq<string>)
      reads this
      ensures u.id in roles ==> r == roles[u.id]
      ensures u.id !in roles ==> r == []
      ensures Valid() && r != [] ==> u.id in users
    {
      if u.id in roles then roles[u.id] else []
    }

    /** Insert a user with a password. Fails, changing nothing, when the name or email is
        empty or already taken, the id is in use, or the validators reject the pair. */
    method Create(u: User, password: string) returns (ok: bool)
      requires Valid()
      modifies this
      ensures Valid()
      ensures ok <==>
        && u.userName != "" && u.email != ""
        && u.id !in old(users)
        && u.userName !in old(byName) && u.email !in old(byEmail)
        && validate(u, password)
      ensures !ok ==> unchanged(this)
      ensures ok ==>
        && users == old(users)[u.id := u]
        && byName == old(byName)[u.userName := u.id]
        && byEmail == old(byEmail)[u.email := u.id]
        && passwordHashes == old(passwordHashes)[u.id := hash(password)]
        && roles == old(roles)
    {
      ok := u.userName != "" && u.email != "" && u.id !in users
            && u.userName !in byName && u.email !in byEmail && validate(u, password);
      if ok {
        InsertKeepsIndex(users, byName, byEmail, roles, u);
        users, byName, byEmail, passwordHashes :=
          users[u.id := u], byName[u.userName := u.id], byEmail[u.email := u.id], passwordHashes[u.id := hash(password)];
      }
    }

    /** Persist a changed record of an existing user whose name and email are unchanged. */
    method Update(u: User)
      requires Valid()
      requires u.id in users && u.userName == users[u.id].userName && u.email == users[u.id].email
      modifies this
      ensures Valid()
      ensures users == old(users)[u.id := u]
      ensures byName == old(byName) && byEmail == old(byEmail)
      ensures roles == old(roles) && passwordHashes == old(passwordHashes)
    {
      ReplaceKeepsIndex(users, byName, byEmail, roles, u);
      users := users[u.id := u];
    }
  }

  /** Once one password checks for a user, exactly the passwords with the same hash check.
      This is a fact about the model's deterministic `hash` parameter: the framework's hasher
      salts each hash and verifies a password against it rather than comparing hashes, so
      the lemma says only that the check depends on nothing but the password's hash. */
  lemma PasswordsCheckByHash(um: UserManager, u: User, password: string, other: string)
    requires um.CheckPassword(u, password)
    ensures um.CheckPassword(u, other) <==> um.hash(other) == um.hash(password)
  {
  }
}

=== FILE: invites.dfy ===
/** The two records behind invitations: an invite link (a bearer ticket for joining one
    island, keyed by its content string) and a membership (a user/island pair). */
module Invites {
  import opened Http

  /** An invite link. `content` is the primary key; `islandId` and `authorId` are required;
      `effectiveTo` and `usagesMax` are optional bounds; `usagesCount` counts redemptions. */
  datatype InviteLink = InviteLink(
    content: string,
    islandId: int,
    authorId: string,
    effectiveFrom: int,
    effectiveTo: Option<int>,
    usagesMax: Option<int>,
    usagesCount: int)

  /** A link built with only its required members set: every other member takes its declared
      default, and `effectiveFrom` is the instant of construction. */
  function NewInviteLink(content: string, islandId: int, authorId: string, now: int): (l: InviteLink)
    ensures l.content == content && l.islandId == islandId && l.authorId == authorId
    ensures l.effectiveFrom == now
    ensures l.effectiveTo == None && l.usagesMax == None
    ensures l.usagesCount == 0
  {
    InviteLink(content, islandId, authorId, now, None, None, 0)
  }

  /** The listing filter: a link is working unless its deadline has passed or its
      redemption count is above its cap. */
  predicate Working(l: InviteLink, now: int)
    ensures Working(l, now) <==>
      (l.effectiveTo.None? || now <= l.effectiveTo.value) && (UsagesLeft(l).None? || UsagesLeft(l).value >= 0)
  {
    !((l.effectiveTo.Some? && now > l.effectiveTo.value) ||
      (l.usagesMax.Some? && l.usagesCount > l.usagesMax.value))
  }

  /** The `Expired` property that redemption consults. The entity does not define it; this
      model takes it to be the negation of the listing filter, an assumption. */
  predicate Expired(l: InviteLink, now: int)
    ensures Expired(l, now) ==> l.effectiveTo.Some? || l.usagesMax.Some?
    ensures Expired(l, now) <==>
      (l.effectiveTo.Some? && now > l.effectiveTo.value) || (UsagesLeft(l).Some? && UsagesLeft(l).value < 0)
  {
    !Working(l, now)
  }

  /** The invite descriptor handed to callers. */
  datatype InviteDto = InviteDto(effectiveTo: Option<int>, usagesLeft: Option<int>, content: string)

  /** Remaining redemptions: cap minus count when a cap is set, otherwise none. */
  function UsagesLeft(l: InviteLink): (r: Option<int>)
    ensures r.None? <==> l.usagesMax.None?
    ensures r.Some? ==> l.usagesCount + r.value == l.usagesMax.value
  {
    if l.usagesMax.Some? then Some(l.usagesMax.value - l.usagesCount) else None
  }

  /** The descriptor of a link as the working-invites listing reports it. */
  function DtoOf(l: InviteLink): InviteDto {
    InviteDto(l.effectiveTo, UsagesLeft(l), l.content)
  }

  /** A membership: the pair is the whole record and its composite key, so a set of
      memberships holds at most one row per pair. */
  datatype UserIsland = UserIsland(userId: string, islandId: int)

  /** A link that is neither time- nor usage-bounded stays working at every instant, however
      often it has been redeemed. */
  lemma UnboundedLinkNeverLapses(l: InviteLink, now: int)
    requires l.effectiveTo.None? && l.usagesMax.None?
    ensures Working(l, now)
    ensures !Expired(l, now)
  {
  }

  /** The cap check compares with `>`: a link whose count has reached its cap still works,
      so a cap of k admits k + 1 redemptions. */
  lemma CapReachedStillWorks(l: InviteLink, now: int)
    requires l.usagesMax.Some? && l.usagesCount == l.usagesMax.value
    requires l.effectiveTo.None?
    ensures Working(l, now)
    ensures Working(l.(usagesCount := l.usagesCount - 1), now)
    ensures !Working(l.(usagesCount := l.usagesCount + 1), now)
  {
  }

  /** Every listed link reports a non-negative number of redemptions left. */
  lemma WorkingLinkHasUsagesLeft(l: InviteLink, now: int)
    requires Working(l, now)
    ensures UsagesLeft(l).Some? ==> UsagesLeft(l).value >= 0
  {
  }

  /** How far a link may overshoot its cap under the candidate `Expired`: at most one
      redemption past the cap (or none at all when the cap is negative). */
  predicate WithinCap(l: InviteLink) {
    l.usagesMax.None? || l.usagesCount == 0 || l.usagesCount <= l.usagesMax.value + 1
  }

  /** One redemption of a link that is not expired keeps it within cap. */
  lemma RedemptionKeepsWithinCap(l: InviteLink, now: int)
    requires WithinCap(l) && l.usagesCount >= 0
    requires !Expired(l, now)
    ensures WithinCap(l.(usagesCount := l.usagesCount + 1))
  {
  }
}

=== FILE: islands.dfy ===
/** The island ledger: the islands, the invite links and the memberships behind the island
    controller's non-file actions. The caller is the user the request's identifier claim
    resolves to (`None` when there is no such claim or no such user). */
module Islands {
  import opened Http
  import opened Invites

  /** An island (a community). */
  datatype Island = Island(
    id: int,
    name: string,
    description: Option<string>,
    status: Option<string>,
    authorId: string,
    ownerId: string,
    logoFilename: Option<string>,
    bannerFilename: Option<string>,
    bannerColor: Option<string>)

  datatype CreateIslandDto = CreateIslandDto(name: string, description: Option<string>)

  datatype EditIslandDto = EditIslandDto(
    name: string, description: Option<string>, status: Option<string>, bannerColor: Option<string>)

  /** The optional duration components and usage cap of an invite request. */
  datatype GenerateInviteQuery = GenerateInviteQuery(
    days: Option<int>, hours: Option<int>, minutes: Option<int>, usages: Option<int>)

  /** Which of the two saves inside island creation throws, if any. */
  datatype StoreFault = NoFault | IslandSaveFails | MembershipSaveFails

  /** True when the request names at least one duration component. */
  predicate HasDuration(q: GenerateInviteQuery) {
    q.days.Some? || q.hours.Some? || q.minutes.Some?
  }

  /** The deadline a generated link receives. The duration components are added to a copy
      of the clock reading whose result is dropped, so a deadline, when there is one, is the
      generation instant itself. */
  function InviteDeadline(q: GenerateInviteQuery, now: int): (r: Option<int>)
    ensures r.None? <==> !HasDuration(q)
    ensures r.Some? ==> r.value == now
  {
    if HasDuration(q) then Some(now) else None
  }

  /** A link generated with any duration has already lapsed one tick later, whatever the
      requested duration was. */
  lemma TimedInviteLapsesAtOnce(key: string, islandId: int, author: string, q: GenerateInviteQuery, now: int, later: int)
    requires HasDuration(q)
    requires later > now
    ensures !Working(NewInviteLink(key, islandId, author, now).(effectiveTo := InviteDeadline(q, now), usagesMax := q.usages), later)
  {
  }

  /** Adding the component to `now` leaves the range of `DateTime`. `AddDays`, `AddHours`
      and `AddMinutes` throw then, even though their results are dropped. */
  predicate OutOfRange(component: Option<int>, unit: int, now: int) {
    component.Some? && !(0 <= now + component.value * unit <= MaxTicks)
  }

  /** Some duration component of the request cannot be added to the clock reading. */
  predicate DurationOverflows(q: GenerateInviteQuery, now: int) {
    OutOfRange(q.days, TicksPerDay, now) || OutOfRange(q.hours, TicksPerHour, now)
    || OutOfRange(q.minutes, TicksPerMinute, now)
  }

  /** Three million days cannot be added to any instant after the year 2000, and minus twenty
      million hours cannot be added to any instant before the year 2200: such requests throw. */
  lemma HugeDurationsOverflow(now: int)
    requires 0 <= now <= MaxTicks
    ensures now >= 631_000_000_000_000_000 ==> DurationOverflows(GenerateInviteQuery(Some(3_000_000), None, None, None), now)
    ensures now < 693_000_000_000_000_000 ==> DurationOverflows(GenerateInviteQuery(None, Some(-20_000_000), None, None), now)
  {
  }

  /** A request for up to a year, made before the year 9000, never overflows. */
  lemma ModestDurationsFit(q: GenerateInviteQuery, now: int)
    requires 0 <= now <= 2_840_000_000_000_000_000
    requires q.days.None? || 0 <= q.days.value <= 366
    requires q.hours.None? || 0 <= q.hours.value <= 24 * 366
    requires q.minutes.None? || 0 <= q.minutes.value <= 60 * 24 * 366
    ensures !DurationOverflows(q, now)
  {
  }

  /** One day and two hours give a deadline equal to the generation instant, not 26 hours later. */
  lemma DayAndTwoHoursGiveNoExtension(now: int)
    ensures InviteDeadline(GenerateInviteQuery(Some(1), Some(2), None, None), now) == Some(now)
    ensures InviteDeadline(GenerateInviteQuery(Some(1), Some(2), None, None), now) != Some(now + 26 * 60 * TicksPerMinute)
  {
  }

  /** The store behind the island controller. */
  class Ledger {
    var islands: map<int, Island>
    var links: map<string, InviteLink>
    var members: set<UserIsland>
    /** The next value of the island table's identity column. */
    var nextId: int

    /** Keys agree with the records they index, and every link and membership refers to an
        existing island. */
    ghost predicate Valid()
      reads this
    {
      && (forall id :: id in islands ==> islands[id].id == id && id < nextId)
      && (forall c :: c in links ==> links[c].content == c && links[c].islandId in islands)
      && (forall m :: m in members ==> m.islandId in islands)
    }

    constructor ()
      ensures Valid()
      ensures islands == map[] && links == map[] && members == {}
    {
      islands, links, members, nextId := map[], map[], {}, 1;
    }

    /** Every link has a non-negative use count at most one past its cap. */
    predicate CapsHeld()
      reads this
    {
      forall c :: c in links ==> WithinCap(links[c]) && links[c].usagesCount >= 0
    }

    /** True when `caller` is the owner of an existing island `islandId`. */
    predicate IsOwner(caller: string, islandId: int)
      reads this
    {
      islandId in islands && islands[islandId].ownerId == caller
    }

    /** The islands the caller is a member of, as a set (the listing's order is the store's). */
    function ListMyIslands(caller: Option<string>): (r: Response<set<Island>>)
      reads this
      requires Valid()
      ensures caller.None? <==> r == Unauthorized
      ensures caller.Some? ==> r.Ok?
      ensures r.Ok? ==> forall i :: i in r.value <==>
        i.id in islands && islands[i.id] == i && UserIsland(caller.value, i.id) in members
    {
      if caller.None? then Unauthorized
      else
        Ok(set m | m in members && m.userId == caller.value && m.islandId in islands :: islands[m.islandId])
    }

    /** One island and the ids of its members; anyone may ask. */
    function GetIsland(islandId: int): (r: Response<(Island, set<string>)>)
      reads this
      requires Valid()
      ensures islandId !in islands <==> r == NotFound
      ensures islandId in islands <==> r.Ok?
      ensures r.Ok? ==> r.value.0 == islands[islandId] && r.value.0.id == islandId
      ensures r.Ok? ==> forall u :: u in r.value.1 <==> UserIsland(u, islandId) in members
    {
      if islandId !in islands then NotFound
      else Ok((islands[islandId], set m | m in members && m.islandId == islandId :: m.userId))
    }

    /** Mint an invite link for an island the caller owns. */
    method GenerateInvite(caller: Option<string>, islandId: int, query: GenerateInviteQuery, key: string, now: int)
      returns (r: Response<InviteDto>)
      requires Valid()
      requires key !in links
      requires 0 <= now <= MaxTicks
      modifies this
      ensures Valid()
      ensures islands == old(islands) && members == old(members) && nextId == old(nextId)
      ensures caller.None? ==> r == Unauthorized
      ensures caller.Some? && islandId !in islands ==> r == NotFound
      ensures caller.Some? && islandId in islands && islands[islandId].ownerId != caller.value ==> r == Forbid
      ensures caller.Some? && IsOwner(caller.value, islandId) && DurationOverflows(query, now) ==> r == Fault
      ensures r.Ok? <==> caller.Some? && IsOwner(caller.value, islandId) && !DurationOverflows(query, now)
      ensures !r.Ok? ==> links == old(links)
      ensures r.Ok? ==>
        && key in links && links == old(links)[key := links[key]]
        && links[key].content == key
        && links[key].islandId == islandId
        && links[key].authorId == caller.value
        && links[key].effectiveFrom == now
        && links[key].effectiveTo == InviteDeadline(query, now)
        && links[key].usagesMax == query.usages
        && links[key].usagesCount == 0
        && r.value == InviteDto(InviteDeadline(query, now), query.usages, key)
    {
      if caller.None? { return Unauthorized; }
      if islandId !in islands { return NotFound; }
      if islands[islandId].ownerId != caller.value { return Forbid; }
      if DurationOverflows(query, now) {
        // a dropped AddDays, AddHours or AddMinutes call throws before anything is saved
        return Fault;
      }
      var invite := NewInviteLink(key, islandId, caller.value, now);
      invite := invite.(effectiveTo := InviteDeadline(query, now), usagesMax := query.usages);
      links := links[key := invite];
      r := Ok(InviteDto(invite.effectiveTo, invite.usagesMax, invite.content));
    }

    /** Create an island owned and authored by the caller and make the caller its first
        member; both writes happen in one transaction that a failing save rolls back. */
    method CreateIsland(caller: Option<string>, dto: CreateIslandDto, fault: StoreFault)
      returns (r: Response<Island>)
      requires Valid()
      modifies this
      ensures Valid()
      ensures links == old(links)
      ensures caller.None? ==> r == Unauthorized && unchanged(this)
      ensures caller.Some? && fault != NoFault ==> r == Fault && unchanged(this)
      ensures caller.Some? && fault == NoFault ==>
        && r.Ok?
        && r.value == Island(old(nextId), dto.name, dto.description, None, caller.value, caller.value, None, None, None)
        && r.value.id !in old(islands)
        && islands == old(islands)[r.value.id := r.value]
        && members == old(members) + {UserIsland(caller.value, r.value.id)}
    {
      if caller.None? { return Unauthorized; }
      var savedIslands, savedNext := islands, nextId;
      var island := Island(nextId, dto.name, dto.description, None, caller.value, caller.value, None, None, None);
      if fault == IslandSaveFails { return Fault; }
      islands := islands[island.id := island];
      nextId := nextId + 1;
      if fault == MembershipSaveFails {
        // the transaction is rolled back and the exception rethrown
        islands, nextId := savedIslands, savedNext;
        return Fault;
      }
      members := members + {UserIsland(caller.value, island.id)};
      r := Ok(island);
    }

    /** Overwrite an owned island's name, description, status and banner colour. */
    method EditIsland(caller: Option<string>, islandId: int, dto: EditIslandDto)
      returns (r: Response<Island>)
      requires Valid()
      modifies this
      ensures Valid()
      ensures links == old(links) && members == old(members) && nextId == old(nextId)
      ensures caller.None? ==> r == Unauthorized
      ensures caller.Some? && islandId !in old(islands) ==> r == NotFound
      ensures caller.Some? && islandId in old(islands) && old(islands)[islandId].ownerId != caller.value ==> r == Forbid
      ensures r.Ok? <==> caller.Some? && old(IsOwner(caller.value, islandId))
      ensures !r.Ok? ==> islands == old(islands)
      ensures r.Ok? ==>
        && islandId in old(islands)
        && islands == old(islands)[islandId := r.value]
        && r.value.name == dto.name && r.value.description == dto.description
        && r.value.status == dto.status && r.value.bannerColor == dto.bannerColor
        && r.value.id == old(islands)[islandId].id
        && r.value.authorId == old(islands)[islandId].authorId
        && r.value.ownerId == old(islands)[islandId].ownerId
        && r.value.logoFilename == old(islands)[islandId].logoFilename
        && r.value.bannerFilename == old(islands)[islandId].bannerFilename
    {
      if caller.None? { return Unauthorized; }
      if islandId !in islands { return NotFound; }
      if islands[islandId].ownerId != caller.value { return Forbid; }
      var island := islands[islandId];
      island := island.(name := dto.name, description := dto.description, status := dto.status, bannerColor := dto.bannerColor);
      islands := islands[islandId := island];
      r := Ok(island);
    }

    /** The working invites, after an ownership check on `islandId`; the filter itself does
        not look at the island, so working links of every island are listed. */
    function ListWorkingInvites(caller: Option<string>, islandId: int, now: int): (r: Response<set<InviteDto>>)
      reads this
      requires Valid()
      ensures caller.None? ==> r == Unauthorized
      ensures caller.Some? && islandId !in islands ==> r == NotFound
      ensures caller.Some? && islandId in islands && islands[islandId].ownerId != caller.value ==> r == Forbid
      ensures r.Ok? <==> caller.Some? && IsOwner(caller.value, islandId)
      ensures r.Ok? ==> forall c :: c in links && Working(links[c], now) ==> DtoOf(links[c]) in r.value
      ensures r.Ok? ==> forall d :: d in r.value ==>
        && d.content in links && Working(links[d.content], now)
        && d.effectiveTo == links[d.content].effectiveTo
        && d.usagesLeft == UsagesLeft(links[d.content])
    {
      if caller.None? then Unauthorized
      else if islandId !in islands then NotFound
      else if islands[islandId].ownerId != caller.value then Forbid
      else Ok(set c | c in links && Working(links[c], now) :: DtoOf(links[c]))
    }

    /** Delete the link keyed by `ticket` after an ownership check on `islandId`; the link
        need not belong to that island. */
    method DeleteInvite(caller: Option<string>, islandId: int, ticket: string)
      returns (r: Response<()>)
      requires Valid()
      modifies this
      ensures Valid()
      ensures islands == old(islands) && members == old(members) && nextId == old(nextId)
      ensures caller.None? ==> r == Unauthorized
      ensures caller.Some? && islandId !in islands ==> r == NotFound
      ensures caller.Some? && islandId in islands && islands[islandId].ownerId != caller.value ==> r == Forbid
      ensures caller.Some? && IsOwner(caller.value, islandId) && ticket !in old(links) ==> r == NotFound
      ensures r.Ok? <==> caller.Some? && IsOwner(caller.value, islandId) && ticket in old(links)
      ensures r.Ok? ==> links == old(links) - {ticket}
      ensures !r.Ok? ==> links == old(links)
    {
      if caller.None? { return Unauthorized; }
      if islandId !in islands { return NotFound; }
      if islands[islandId].ownerId != caller.value { return Forbid; }
      if ticket !in links { return NotFound; }
      links := links - {ticket};
      r := Ok(());
    }

    /** Redeem the link keyed by `ticket`: add the caller to the link's island and count one
        more use, in one save. `expired` is the link's `Expired` property at `now`. There is
        no membership check: for a caller who is already a member the save violates the
        membership key and throws, so neither write survives. */
    method UseInvite(caller: Option<string>, ticket: string, now: int, expired: (InviteLink, int) -> bool)
      returns (r: Response<()>)
      requires Valid()
      modifies this
      ensures Valid()
      ensures islands == old(islands) && nextId == old(nextId)
      ensures caller.None? ==> r == Unauthorized
      ensures caller.Some? && ticket !in old(links) ==> r == NotFound
      ensures caller.Some? && ticket in old(links) && expired(old(links)[ticket], now) ==> r == BadRequest
      ensures (caller.Some? && ticket in old(links) && !expired(old(links)[ticket], now)
               && UserIsland(caller.value, old(links)[ticket].islandId) in old(members)) ==> r == Fault
      ensures !r.Ok? ==> links == old(links) && members == old(members)
      ensures r.Ok? <==>
        && caller.Some? && ticket in old(links) && !expired(old(links)[ticket], now)
        && UserIsland(caller.value, old(links)[ticket].islandId) !in old(members)
      ensures (forall l, t :: expired(l, t) == Expired(l, t)) && old(CapsHeld()) ==> CapsHeld()
      ensures r.Ok? ==>
        && members == old(members) + {UserIsland(caller.value, old(links)[ticket].islandId)}
        && links == old(links)[ticket := old(links)[ticket].(usagesCount := old(links)[ticket].usagesCount + 1)]
    {
      if caller.None? { return Unauthorized; }
      if ticket !in links { return NotFound; }
      var link := links[ticket];
      if expired(link, now) { return BadRequest; }
      var linker := UserIsland(caller.value, link.islandId);
      if linker in members {
        // the single save fails on the duplicate key; nothing is written
        return Fault;
      }
      if (forall l, t :: expired(l, t) == Expired(l, t)) && CapsHeld() {
        RedemptionKeepsWithinCap(link, now);
      }
      members := members + {linker};
      links := links[ticket := link.(usagesCount := link.usagesCount + 1)];
      r := Ok(());
    }
  }

  /** A link capped at one use, redeemed by three fresh users in turn: the first two are
      admitted and only the third is refused, because the cap check compares with `>`. */
  method SingleUseInviteAdmitsTwo(owner: string, u1: string, u2: string, u3: string, key: string, now: int)
    returns (r1: Response<()>, r2: Response<()>, r3: Response<()>)
    requires owner != u1 && owner != u2 && owner != u3 && u1 != u2 && u1 != u3 && u2 != u3
    requires 0 <= now <= MaxTicks
    ensures r1.Ok? && r2.Ok? && r3 == BadRequest
  {
    var ledger := new Ledger();
    var created := ledger.CreateIsland(Some(owner), CreateIslandDto("island", None), NoFault);
    var id := created.value.id;
    var invite := ledger.GenerateInvite(Some(owner), id, GenerateInviteQuery(None, None, None, Some(1)), key, now);
    assert ledger.members == {UserIsland(owner, id)};
    assert !Expired(ledger.links[key], now);
    r1 := ledger.UseInvite(Some(u1), key, now, Expired);
    assert ledger.links[key].usagesCount == 1 && ledger.links[key].usagesMax == Some(1);
    assert !Expired(ledger.links[key], now);
    r2 := ledger.UseInvite(Some(u2), key, now, Expired);
    assert ledger.links[key].usagesCount == 2;
    assert Expired(ledger.links[key], now);
    r3 := ledger.UseInvite(Some(u3), key, now, Expired);
  }

  /** Redeeming the same link twice: the second attempt by the same user is refused by the
      membership key (an escaping exception), and the use count moves only once. */
  method SecondRedemptionFaults(owner: string, user: string, key: string, now: int)
    returns (r1: Response<()>, r2: Response<()>, uses: int)
    requires owner != user
    requires 0 <= now <= MaxTicks
    ensures r1.Ok? && r2 == Fault && uses == 1
  {
    var ledger := new Ledger();
    var created := ledger.CreateIsland(Some(owner), CreateIslandDto("island", None), NoFault);
    var id := created.value.id;
    var invite := ledger.GenerateInvite(Some(owner), id, GenerateInviteQuery(None, None, None, None), key, now);
    assert ledger.members == {UserIsland(owner, id)};
    assert !Expired(ledger.links[key], now);
    r1 := ledger.UseInvite(Some(user), key, now, Expired);
    assert UserIsland(user, id) in ledger.members && ledger.links[key].islandId == id;
    assert !Expired(ledger.links[key], now);
    r2 := ledger.UseInvite(Some(user), key, now, Expired);
    uses := ledger.links[key].usagesCount;
  }

  /** The owner of one island deletes a link that belongs to another owner's island: the
      ownership check looks only at the island named in the route. */
  method DeleteForeignInvite(ownerA: string, ownerB: string, key: string, now: int)
    returns (r: Response<()>, stillThere: bool)
    requires ownerA != ownerB
    requires 0 <= now <= MaxTicks
    ensures r.Ok? && !stillThere
  {
    var ledger := new Ledger();
    var a := ledger.CreateIsland(Some(ownerA), CreateIslandDto("a", None), NoFault);
    var b := ledger.CreateIsland(Some(ownerB), CreateIslandDto("b", None), NoFault);
    var invite := ledger.GenerateInvite(Some(ownerB), b.value.id, GenerateInviteQuery(None, None, None, None), key, now);
    r := ledger.DeleteInvite(Some(ownerA), a.value.id, key);
    stillThere := key in ledger.links;
  }

  /** Listing the working invites of an owned island also lists working links of other
      islands. */
  lemma ListingSpansIslands(ledger: Ledger, caller: string, islandId: int, c: string, now: int)
    requires ledger.Valid()
    requires ledger.IsOwner(caller, islandId)
    requires c in ledger.links && ledger.links[c].islandId != islandId && Working(ledger.links[c], now)
    ensures ledger.ListWorkingInvites(Some(caller), islandId, now).Ok?
    ensures DtoOf(ledger.links[c]) in ledger.ListWorkingInvites(Some(caller), islandId, now).value
  {
  }
}

=== FILE: tokens.dfy ===
/** The token service: access tokens carrying an identity's claims, opaque refresh tokens,
    and recovery of the claims of an expired access token.

    Signing is symbolic: a signature is the value `Mac(key, ...)` over the algorithm, the
    issuer, the audience, the expiry and the encoded payload, and only a holder of the key
    can form it. A written token is the `Jwt` value; its payload is the claim list encoded
    as a flat list of strings. */
module Tokens {
  import opened Http
  import opened Identity

  /** The signing algorithm identifier. */
  const HmacSha256: string := "HS256"

  /** Registered claim names and the role claim type. */
  const SubClaim: string := "sub"
  const EmailClaim: string := "email"
  const NicknameClaim: string := "nickname"
  const JtiClaim: string := "jti"
  const RoleClaim: string := "http://schemas.microsoft.com/ws/2008/06/identity/claims/role"

  datatype Claim = Claim(kind: string, value: string)

  /** The deployment's token configuration: the signing secret, the issuer and audience, and
      the access-token lifetime in minutes. */
  datatype JwtConfig = JwtConfig(secretKey: string, issuer: string, audience: string, accessTokenExpiry: int)

  /** A symbolic message authentication code. */
  datatype Mac = Mac(key: string, alg: string, issuer: string, audience: string, expires: int, payload: seq<string>)

  /** A written token: header algorithm, issuer, audience, expiry, payload, signature (absent
      for an unsigned token). */
  datatype Jwt = Jwt(alg: string, issuer: string, audience: string, expires: int, payload: seq<string>, signature: Option<Mac>)

  newtype byte = x: int | 0 <= x < 256

  // ---------------------------------------------------------------- claims encoding

  /** Each claim becomes its type followed by its value. */
  function EncodeClaims(cs: seq<Claim>): (w: seq<string>)
    ensures |w| == 2 * |cs|
  {
    if cs == [] then [] else [cs[0].kind, cs[0].value] + EncodeClaims(cs[1..])
  }

  /** Reads claims back pairwise; an odd-length payload is malformed. */
  function DecodeClaims(w: seq<string>): (r: Option<seq<Claim>>)
    ensures r.Some? ==> 2 * |r.value| == |w|
  {
    if w == [] then Some([])
    else if |w| < 2 then None
    else match DecodeClaims(w[2..])
      case None => None
      case Some(rest) => Some([Claim(w[0], w[1])] + rest)
  }

  /** Decoding undoes encoding. */
  lemma {:induction false} DecodeEncode(cs: seq<Claim>)
    ensures DecodeClaims(EncodeClaims(cs)) == Some(cs)
  {
    if cs != [] {
      DecodeEncode(cs[1..]);
      var w := EncodeClaims(cs);
      assert w[2..] == EncodeClaims(cs[1..]);
      assert [cs[0]] + cs[1..] == cs;
    }
  }

  /** A payload that decodes is the encoding of what it decodes to, so the encoding is
      injective on the payloads that decode. */
  lemma {:induction false} EncodeDecode(w: seq<string>, cs: seq<Claim>)
    requires DecodeClaims(w) == Some(cs)
    ensures EncodeClaims(cs) == w
  {
    if w != [] {
      var rest := DecodeClaims(w[2..]).value;
      EncodeDecode(w[2..], rest);
      assert cs == [Claim(w[0], w[1])] + rest;
      assert cs[1..] == rest;
      assert w == [w[0], w[1]] + w[2..];
    }
  }

  /** ASCII case folding to lower case. */
  function FoldCase(c: char): char {
    if 'A' <= c <= 'Z' then (c as int + 32) as char else c
  }

  /** Case-insensitive equality of two strings (ASCII folding). */
  predicate EqualsIgnoreCase(a: string, b: string) {
    |a| == |b| && forall i :: 0 <= i < |a| ==> FoldCase(a[i]) == FoldCase(b[i])
  }

  /** The value of the first claim whose type is the given one, ignoring case as the
      framework's claim lookup does. */
  function FindFirst(cs: seq<Claim>, kind: string): (r: Option<string>)
    ensures r.None? ==> forall i :: 0 <= i < |cs| ==> !EqualsIgnoreCase(cs[i].kind, kind)
    ensures r.Some? ==> exists i :: 0 <= i < |cs| && EqualsIgnoreCase(cs[i].kind, kind) && cs[i].value == r.value
                                    && forall j :: 0 <= j < i ==> !EqualsIgnoreCase(cs[j].kind, kind)
  {
    if cs == [] then None
    else if EqualsIgnoreCase(cs[0].kind, kind) then Some(cs[0].value)
    else
      var r := FindFirst(cs[1..], kind);
      if r.Some? then
        ghost var i :| 0 <= i < |cs[1..]| && EqualsIgnoreCase(cs[1..][i].kind, kind) && cs[1..][i].value == r.value
                       && forall j :: 0 <= j < i ==> !EqualsIgnoreCase(cs[1..][j].kind, kind);
        assert EqualsIgnoreCase(cs[i + 1].kind, kind) && cs[i + 1].value == r.value;
        assert forall j :: 0 <= j < i + 1 ==> !EqualsIgnoreCase(cs[j].kind, kind) by {
          forall j | 0 <= j < i + 1 ensures !EqualsIgnoreCase(cs[j].kind, kind) {
            if j > 0 { assert cs[j] == cs[1..][j - 1]; }
          }
        }
        r
      else r
  }

  /** A claim type that differs from the requested one only in case is found first. */
  lemma ClaimTypeCaseIgnored()
    ensures FindFirst([Claim("Nickname", "mallory"), Claim("nickname", "alice")], NicknameClaim) == Some("mallory")
  {
    assert EqualsIgnoreCase("Nickname", NicknameClaim) by {
      assert FoldCase('N') == 'n';
    }
  }

  // ---------------------------------------------------------------- access tokens

  /** One role claim per role, in the roles' order. */
  function RoleClaims(roles: seq<string>): seq<Claim> {
    seq(|roles|, i requires 0 <= i < |roles| => Claim(RoleClaim, roles[i]))
  }

  /** The claim list of an access token: subject, email, nickname, token id, then the roles. */
  function AccessClaims(u: User, jti: string, roles: seq<string>): seq<Claim> {
    [Claim(SubClaim, u.id), Claim(EmailClaim, u.email), Claim(NicknameClaim, u.userName), Claim(JtiClaim, jti)]
    + RoleClaims(roles)
  }

  /** The claims of an access token, in order, are sub, email, nickname and jti followed by
      one role claim per role: 4 + |roles| claims. */
  lemma AccessClaimsShape(u: User, jti: string, roles: seq<string>)
    ensures var cs := AccessClaims(u, jti, roles);
      && |cs| == 4 + |roles|
      && cs[0] == Claim(SubClaim, u.id)
      && cs[1] == Claim(EmailClaim, u.email)
      && cs[2] == Claim(NicknameClaim, u.userName)
      && cs[3] == Claim(JtiClaim, jti)
      && forall k :: 0 <= k < |roles| ==> cs[4 + k] == Claim(RoleClaim, roles[k])
  {
  }

  /** The nickname claim of an access token is the user's name. */
  lemma NicknameOfAccessClaims(u: User, jti: string, roles: seq<string>)
    ensures FindFirst(AccessClaims(u, jti, roles), NicknameClaim) == Some(u.userName)
  {
    var cs := AccessClaims(u, jti, roles);
    assert cs[0].kind != NicknameClaim && cs[1].kind != NicknameClaim && cs[2].kind == NicknameClaim;
    assert cs[1..][1..][0] == cs[2];
  }

  /** The signature the deployment's key gives to these token fields. */
  function SignatureFor(cfg: JwtConfig, alg: string, issuer: string, audience: string, expires: int, payload: seq<string>): Mac {
    Mac(cfg.secretKey, alg, issuer, audience, expires, payload)
  }

  /** The token written for a claim list at `now`: HS256, configured issuer and audience,
      expiry `now` plus the configured minutes, signed with the configured key. */
  function IssueToken(cfg: JwtConfig, claims: seq<Claim>, now: int): (t: Jwt)
    ensures SignatureValid(cfg, t)
    ensures t.alg == HmacSha256 && t.issuer == cfg.issuer && t.audience == cfg.audience
    ensures t.expires == now + cfg.accessTokenExpiry * TicksPerMinute
    ensures DecodeClaims(t.payload) == Some(claims)
  {
    DecodeEncode(claims);
    var expires := now + cfg.accessTokenExpiry * TicksPerMinute;
    var payload := EncodeClaims(claims);
    Jwt(HmacSha256, cfg.issuer, cfg.audience, expires, payload,
        Some(SignatureFor(cfg, HmacSha256, cfg.issuer, cfg.audience, expires, payload)))
  }

  /** Build the claim list (the roles appended one by one) and write the token. */
  method GenerateAccessToken(cfg: JwtConfig, u: User, roles: seq<string>, jti: string, now: int)
    returns (t: Jwt)
    ensures t == IssueToken(cfg, AccessClaims(u, jti, roles), now)
    ensures t.alg == HmacSha256 && t.issuer == cfg.issuer && t.audience == cfg.audience
    ensures t.expires == now + cfg.accessTokenExpiry * TicksPerMinute
  {
    var claims := [Claim(SubClaim, u.id), Claim(EmailClaim, u.email), Claim(NicknameClaim, u.userName), Claim(JtiClaim, jti)];
    for i := 0 to |roles|
      invariant |claims| == 4 + i
      invariant claims[..4] == AccessClaims(u, jti, roles)[..4]
      invariant forall k :: 0 <= k < i ==> claims[4 + k] == Claim(RoleClaim, roles[k])
    {
      claims := claims + [Claim(RoleClaim, roles[i])];
    }
    assert claims == AccessClaims(u, jti, roles);
    var expires := now + cfg.accessTokenExpiry * TicksPerMinute;
    var payload := EncodeClaims(claims);
    t := Jwt(HmacSha256, cfg.issuer, cfg.audience, expires, payload,
             Some(SignatureFor(cfg, HmacSha256, cfg.issuer, cfg.audience, expires, payload)));
  }

  // ---------------------------------------------------------------- refresh tokens

  /** The characters of the standard base64 alphabet (RFC 4648, section 4): 'A'-'Z', 'a'-'z',
      '0'-'9', '+' and '/', for the values 0 to 63 in that order. */
  predicate IsSextetChar(c: char) {
    ('A' <= c <= 'Z') || ('a' <= c <= 'z') || ('0' <= c <= '9') || c == '+' || c == '/'
  }

  /** The value of a base64 character. */
  function SextetValue(c: char): (v: int)
    requires IsSextetChar(c)
    ensures 0 <= v < 64
  {
    if 'A' <= c <= 'Z' then c as int - 'A' as int
    else if 'a' <= c <= 'z' then c as int - 'a' as int + 26
    else if '0' <= c <= '9' then c as int - '0' as int + 52
    else if c == '+' then 62
    else 63
  }

  /** The character of a six-bit group. */
  function Sextet(k: int): (c: char)
    requires 0 <= k < 64
    ensures IsSextetChar(c) && SextetValue(c) == k
  {
    if k < 26 then (k + 'A' as int) as char
    else if k < 52 then (k - 26 + 'a' as int) as char
    else if k < 62 then (k - 52 + '0' as int) as char
    else if k == 62 then '+'
    else '/'
  }

  /** The four characters of the final one or two bytes, padded with '='. */
  function Base64Tail(b: seq<byte>): (s: string)
    requires 1 <= |b| <= 2
    ensures |s| == 4 && s[3] == '=' && IsSextetChar(s[0]) && IsSextetChar(s[1])
    ensures s[2] == '=' <==> |b| == 1
    ensures s[2] != '=' ==> IsSextetChar(s[2])
  {
    var b0 := b[0] as int;
    if |b| == 1 then [Sextet(b0 / 4), Sextet((b0 % 4) * 16), '=', '=']
    else
      var b1 := b[1] as int;
      [Sextet(b0 / 4), Sextet((b0 % 4) * 16 + b1 / 16), Sextet((b1 % 16) * 4), '=']
  }

  /** The four characters of three bytes. */
  function Base64Group(b0: byte, b1: byte, b2: byte): (s: string)
    ensures |s| == 4
    ensures forall i :: 0 <= i < |s| ==> IsSextetChar(s[i])
  {
    var x, y, z := b0 as int, b1 as int, b2 as int;
    [Sextet(x / 4), Sextet((x % 4) * 16 + y / 16), Sextet((y % 16) * 4 + z / 64), Sextet(z % 64)]
  }

  /** Padded base64 text of a byte string, three bytes to four characters. */
  function Base64Encode(b: seq<byte>): (s: string)
    ensures |s| == 4 * ((|b| + 2) / 3)
    ensures forall i :: 0 <= i < |s| ==> IsSextetChar(s[i]) || s[i] == '='
    decreases |b|
  {
    if |b| == 0 then ""
    else if |b| <= 2 then Base64Tail(b)
    else
      var head := Base64Group(b[0], b[1], b[2]);
      var rest := Base64Encode(b[3..]);
      assert (|b| + 2) / 3 == (|b[3..]| + 2) / 3 + 1;
      head + rest
  }

  /** The bytes of four base64 characters, the last one or two of which may be padding
      (only in the final group); `None` for text that is not base64. */
  function Base64DecodeQuad(c0: char, c1: char, c2: char, c3: char): (r: Option<seq<byte>>)
    ensures r.Some? ==> 1 <= |r.value| <= 3
  {
    if !IsSextetChar(c0) || !IsSextetChar(c1) then None
    else
      var v0, v1 := SextetValue(c0), SextetValue(c1);
      if c2 == '=' && c3 == '=' then Some([(v0 * 4 + v1 / 16) as byte])
      else if !IsSextetChar(c2) then None
      else
        var v2 := SextetValue(c2);
        if c3 == '=' then Some([(v0 * 4 + v1 / 16) as byte, ((v1 % 16) * 16 + v2 / 4) as byte])
        else if !IsSextetChar(c3) then None
        else
          var v3 := SextetValue(c3);
          Some([(v0 * 4 + v1 / 16) as byte, ((v1 % 16) * 16 + v2 / 4) as byte, ((v2 % 4) * 64 + v3) as byte])
  }

  /** Base64 decoding: four characters at a time, padding allowed only in the last group. */
  function Base64Decode(s: string): (r: Option<seq<byte>>)
    decreases |s|
  {
    if s == [] then Some([])
    else if |s| < 4 then None
    else
      match Base64DecodeQuad(s[0], s[1], s[2], s[3])
      case None => None
      case Some(head) =>
        if |head| < 3 then (if |s| == 4 then Some(head) else None)
        else match Base64Decode(s[4..])
          case None => None
          case Some(rest) => Some(head + rest)
  }

  /** Four characters of a full group decode to its three bytes. */
  lemma GroupDecodes(b0: byte, b1: byte, b2: byte)
    ensures var s := Base64Group(b0, b1, b2);
      Base64DecodeQuad(s[0], s[1], s[2], s[3]) == Some([b0, b1, b2])
  {
    var x, y, z := b0 as int, b1 as int, b2 as int;
    assert ((x % 4) * 16 + y / 16) / 16 == x % 4 && ((x % 4) * 16 + y / 16) % 16 == y / 16;
    assert ((y % 16) * 4 + z / 64) / 4 == y % 16 && ((y % 16) * 4 + z / 64) % 4 == z / 64;
  }

  /** One padded byte decodes to itself. */
  lemma OneByteDecodes(b0: byte)
    ensures var s := Base64Tail([b0]);
      Base64DecodeQuad(s[0], s[1], s[2], s[3]) == Some([b0])
  {
    var x := b0 as int;
    assert ((x % 4) * 16) / 16 == x % 4;
    assert (x / 4 * 4 + x % 4) as byte == b0;
  }

  /** Two padded bytes decode to themselves. */
  lemma TwoBytesDecode(b0: byte, b1: byte)
    ensures var s := Base64Tail([b0, b1]);
      Base64DecodeQuad(s[0], s[1], s[2], s[3]) == Some([b0, b1])
  {
    var x, y := b0 as int, b1 as int;
    assert ((x % 4) * 16 + y / 16) / 16 == x % 4 && ((x % 4) * 16 + y / 16) % 16 == y / 16;
    assert ((y % 16) * 4) / 4 == y % 16;
    assert (x / 4 * 4 + x % 4) as byte == b0 && ((y / 16) * 16 + y % 16) as byte == b1;
  }

  /** One or two bytes encode to their padded final group. */
  lemma EncodeTail(b: seq<byte>)
    requires 1 <= |b| <= 2
    ensures Base64Encode(b) == Base64Tail(b)
  {
  }

  /** Three or more bytes encode to the group of the first three followed by the rest. */
  lemma EncodeGroup(b: seq<byte>)
    requires |b| >= 3
    ensures Base64Encode(b) == Base64Group(b[0], b[1], b[2]) + Base64Encode(b[3..])
  {
  }

  /** Four characters holding a padded group decode to that group's bytes. */
  lemma DecodeLastGroup(s: string, g: seq<byte>)
    requires |s| == 4 && |g| < 3
    requires Base64DecodeQuad(s[0], s[1], s[2], s[3]) == Some(g)
    ensures Base64Decode(s) == Some(g)
  {
  }

  /** One byte encodes and decodes back to itself. */
  lemma OneByteRoundTrip(b0: byte)
    ensures Base64Decode(Base64Encode([b0])) == Some([b0])
  {
    EncodeTail([b0]);
    OneByteDecodes(b0);
    DecodeLastGroup(Base64Tail([b0]), [b0]);
  }

  /** Two bytes encode and decode back to themselves. */
  lemma TwoBytesRoundTrip(b0: byte, b1: byte)
    ensures Base64Decode(Base64Encode([b0, b1])) == Some([b0, b1])
  {
    EncodeTail([b0, b1]);
    TwoBytesDecode(b0, b1);
    DecodeLastGroup(Base64Tail([b0, b1]), [b0, b1]);
  }

  /** Encoding one or two bytes and decoding gives them back. */
  lemma TailRoundTrip(b: seq<byte>)
    requires 1 <= |b| <= 2
    ensures Base64Decode(Base64Encode(b)) == Some(b)
  {
    if |b| == 1 {
      assert b == [b[0]];
      OneByteRoundTrip(b[0]);
    } else {
      assert b == [b[0], b[1]];
      TwoBytesRoundTrip(b[0], b[1]);
    }
  }

  /** Decoding text that starts with a full group yields the group's bytes followed by the
      decoding of the rest. */
  lemma DecodeAfterGroup(head: string, rest: string, g: seq<byte>, r: seq<byte>)
    requires |head| == 4 && |g| == 3
    requires Base64DecodeQuad(head[0], head[1], head[2], head[3]) == Some(g)
    requires Base64Decode(rest) == Some(r)
    ensures Base64Decode(head + rest) == Some(g + r)
  {
    var s := head + rest;
    assert s[0] == head[0] && s[1] == head[1] && s[2] == head[2] && s[3] == head[3];
    assert s[4..] == rest;
  }

  /** A byte string of three or more is its first three bytes followed by the rest. */
  lemma SplitFirstThree(b: seq<byte>)
    requires |b| >= 3
    ensures [b[0], b[1], b[2]] + b[3..] == b
  {
  }

  /** If the bytes after the first group round-trip, so do all of them. */
  lemma GroupRoundTrip(b: seq<byte>)
    requires |b| >= 3
    requires Base64Decode(Base64Encode(b[3..])) == Some(b[3..])
    ensures Base64Decode(Base64Encode(b)) == Some(b)
  {
    var head := Base64Group(b[0], b[1], b[2]);
    var rest := Base64Encode(b[3..]);
    EncodeGroup(b);
    GroupDecodes(b[0], b[1], b[2]);
    DecodeAfterGroup(head, rest, [b[0], b[1], b[2]], b[3..]);
    SplitFirstThree(b);
  }

  /** Decoding undoes base64 encoding, so the encoding is one to one. */
  lemma {:induction false} Base64RoundTrip(b: seq<byte>)
    ensures Base64Decode(Base64Encode(b)) == Some(b)
    decreases |b|
  {
    if |b| == 0 {
    } else if |b| <= 2 {
      TailRoundTrip(b);
    } else {
      Base64RoundTrip(b[3..]);
      GroupRoundTrip(b);
    }
  }

  /** A refresh token is the base64 text of 64 random bytes: 88 characters, derived from
      nothing but the random bytes. */
  function GenerateRefreshToken(random: seq<byte>): (s: string)
    requires |random| == 64
    ensures |s| == 88
    ensures forall i :: 0 <= i < |s| ==> IsSextetChar(s[i]) || s[i] == '='
    ensures Base64Decode(s) == Some(random)
  {
    Base64RoundTrip(random);
    Base64Encode(random)
  }

  /** Distinct random bytes give distinct refresh tokens. */
  lemma RefreshTokensDistinct(r1: seq<byte>, r2: seq<byte>)
    requires |r1| == 64 && |r2| == 64 && r1 != r2
    ensures GenerateRefreshToken(r1) != GenerateRefreshToken(r2)
  {
  }

  // ---------------------------------------------------------------- recovering claims

  /** The token's signature is the one the configured key gives to its fields. */
  predicate SignatureValid(cfg: JwtConfig, t: Jwt) {
    t.signature == Some(SignatureFor(cfg, t.alg, t.issuer, t.audience, t.expires, t.payload))
  }

  /** Token validation with issuer, audience and signing key checked and lifetime not
      checked: the claims of a token that passes, `None` where validation throws. */
  function ValidateIgnoringLifetime(cfg: JwtConfig, t: Jwt): (r: Option<seq<Claim>>)
    ensures r.Some? <==> SignatureValid(cfg, t) && t.issuer == cfg.issuer && t.audience == cfg.audience
                         && DecodeClaims(t.payload).Some?
    ensures r.Some? ==> EncodeClaims(r.value) == t.payload
  {
    if SignatureValid(cfg, t) && t.issuer == cfg.issuer && t.audience == cfg.audience then
      var r := DecodeClaims(t.payload);
      if r.Some? then EncodeDecode(t.payload, r.value); r else r
    else None
  }

  /** The claims of a token that validates with lifetime ignored and whose header algorithm
      is HS256 up to case; `None` stands for the exception thrown otherwise. The clock
      reading `now` is not consulted. */
  function GetPrincipalFromExpiredToken(cfg: JwtConfig, t: Jwt, now: int): (r: Option<seq<Claim>>)
    ensures r.Some? <==> ValidateIgnoringLifetime(cfg, t).Some? && EqualsIgnoreCase(t.alg, HmacSha256)
    ensures r.Some? ==> r == DecodeClaims(t.payload)
  {
    var principal := ValidateIgnoringLifetime(cfg, t);
    if principal.None? || !EqualsIgnoreCase(t.alg, HmacSha256) then None else principal
  }

  /** A token this deployment issued yields exactly the claims it was issued with, at any
      instant, however long after its expiry. */
  lemma IssuedTokenRecoversClaims(cfg: JwtConfig, claims: seq<Claim>, issuedAt: int, now: int)
    ensures var t := IssueToken(cfg, claims, issuedAt);
      GetPrincipalFromExpiredToken(cfg, t, now) == Some(claims)
  {
    DecodeEncode(claims);
    var t := IssueToken(cfg, claims, issuedAt);
    assert EqualsIgnoreCase(t.alg, HmacSha256);
  }

  /** The algorithm check ignores case but nothing else: "hs256" passes, while "none" and
      "HS384" are refused even on a token that otherwise validates. */
  lemma AlgorithmCheck(cfg: JwtConfig, t: Jwt, now: int)
    ensures EqualsIgnoreCase("hs256", HmacSha256)
    ensures !EqualsIgnoreCase("none", HmacSha256)
    ensures !EqualsIgnoreCase("HS384", HmacSha256)
    ensures t.alg == "none" || t.alg == "HS384" ==> GetPrincipalFromExpiredToken(cfg, t, now) == None
  {
    assert FoldCase('8') != FoldCase('2');
    assert "HS384"[2] == '3' && HmacSha256[2] == '2';
  }

  /** A token that was never signed is refused. */
  lemma UnsignedTokenRefused(cfg: JwtConfig, t: Jwt, now: int)
    requires t.signature.None?
    ensures GetPrincipalFromExpiredToken(cfg, t, now).None?
  {
  }
}

=== FILE: users.dfy ===
/** The user controller: search by one criterion with paging, profile views and profile
    edits. Lower-casing is a given function `lower`; the users table is the sequence the
    store enumerates. */
module Users {
  import opened Http
  import opened Identity

  /** The search criteria and the paging parameters. */
  datatype SearchQuery = SearchQuery(
    username: Option<string>,
    tag: Option<string>,
    displayname: Option<string>,
    id: Option<string>,
    email: Option<string>,
    page: int,
    size: int)

  /** A successful search answer: an empty list (no usable criterion), one user, or a page
      of users. */
  datatype SearchBody = NoCriteria | Single(user: User) | Listing(users: seq<User>)

  /** A criterion that is present and at least `n` characters long. */
  predicate LongEnough(s: Option<string>, n: nat) {
    s.Some? && |s.value| >= n
  }

  /** At least one criterion is long enough: three characters, five for the id. */
  predicate GuardPasses(q: SearchQuery)
    ensures GuardPasses(q) ==>
      q.username.Some? || q.tag.Some? || q.displayname.Some? || q.id.Some? || q.email.Some?
  {
    LongEnough(q.username, 3) || LongEnough(q.tag, 3) || LongEnough(q.displayname, 3)
    || LongEnough(q.id, 5) || LongEnough(q.email, 3)
  }

  /** The first user satisfying `p`, in table order. */
  function FirstWhere(users: seq<User>, p: User -> bool): (r: Option<User>)
    ensures r.None? <==> forall i :: 0 <= i < |users| ==> !p(users[i])
    ensures r.Some? ==> exists i :: 0 <= i < |users| && users[i] == r.value && p(users[i])
                                    && forall j :: 0 <= j < i ==> !p(users[j])
  {
    if users == [] then None
    else if p(users[0]) then Some(users[0])
    else
      var r := FirstWhere(users[1..], p);
      if r.Some? then
        ghost var i :| 0 <= i < |users[1..]| && users[1..][i] == r.value && p(users[1..][i])
                       && forall j :: 0 <= j < i ==> !p(users[1..][j]);
        assert users[i + 1] == r.value;
        assert forall j :: 0 <= j < i + 1 ==> !p(users[j]) by {
          forall j | 0 <= j < i + 1 ensures !p(users[j]) {
            if j > 0 { assert users[j] == users[1..][j - 1]; }
          }
        }
        r
      else r
  }

  /** The users satisfying `p`, in table order. */
  function Where(users: seq<User>, p: User -> bool): (r: seq<User>)
    ensures |r| <= |users|
    ensures forall i :: 0 <= i < |r| ==> p(r[i]) && r[i] in users
    ensures forall u :: u in users && p(u) ==> u in r
  {
    if users == [] then []
    else
      var rest := Where(users[1..], p);
      assert forall u :: u in users && u != users[0] ==> u in users[1..];
      if p(users[0]) then [users[0]] + rest else rest
  }

  /** `Skip(skip).Take(take)`: at most `take` elements, starting `skip` elements in. */
  function Page(s: seq<User>, skip: nat, take: nat): (r: seq<User>)
    ensures |r| <= take
    ensures skip >= |s| ==> r == []
    ensures skip < |s| ==> |r| == if skip + take <= |s| then take else |s| - skip
    ensures forall i :: 0 <= i < |r| ==> r[i] == s[skip + i]
  {
    if skip >= |s| then [] else if skip + take <= |s| then s[skip..skip + take] else s[skip..]
  }

  /** The fields the prefix searches look at. */
  datatype Field = UserNameField | TagField | DisplayNameField

  function FieldOf(u: User, f: Field): string {
    match f
    case UserNameField => u.userName
    case TagField => u.tag
    case DisplayNameField => u.displayName
  }

  /** Case-insensitive prefix match through the given lower-casing. */
  predicate StartsWithIgnoringCase(field: string, query: string, lower: string -> string) {
    lower(query) <= lower(field)
  }

  /** The users whose field (chosen by `field`) starts with `query`, ignoring case, in
      table order. */
  function Matches(users: seq<User>, field: Field, query: string, lower: string -> string): seq<User> {
    Where(users, (u: User) => StartsWithIgnoringCase(FieldOf(u, field), query, lower))
  }

  /** The page of prefix matches that starts `skip` matches in and holds at most `take`. */
  function PrefixPage(users: seq<User>, field: Field, query: string, lower: string -> string, skip: nat, take: nat): (r: seq<User>)
    ensures var m := Matches(users, field, query, lower);
      |r| == if skip >= |m| then 0 else if skip + take <= |m| then take else |m| - skip
    ensures forall i :: 0 <= i < |r| ==> r[i] in users && StartsWithIgnoringCase(FieldOf(r[i], field), query, lower)
  {
    Page(Matches(users, field, query, lower), skip, take)
  }

  /** The values of the source's 32-bit `int`. */
  predicate IsInt32(x: int) {
    -0x8000_0000 <= x < 0x8000_0000
  }

  /** Unchecked 32-bit `int` arithmetic: the value reduced modulo 2^32 into the `int` range. */
  function Wrap32(x: int): (r: int)
    ensures IsInt32(r)
    ensures (x - r) % 0x1_0000_0000 == 0
    ensures IsInt32(x) ==> r == x
  {
    (x + 0x8000_0000) % 0x1_0000_0000 - 0x8000_0000
  }

  /** Multiplying congruent values by the same factor keeps them congruent modulo 2^32. */
  lemma ScaledCongruence(x: int, a: int, size: int, r: int)
    requires (x - a) % 0x1_0000_0000 == 0
    requires (a * size - r) % 0x1_0000_0000 == 0
    ensures (x * size - r) % 0x1_0000_0000 == 0
  {
    var k := (x - a) / 0x1_0000_0000;
    var m := (a * size - r) / 0x1_0000_0000;
    assert x == a + k * 0x1_0000_0000;
    assert x * size == a * size + (k * size) * 0x1_0000_0000;
    assert x * size - r == (k * size + m) * 0x1_0000_0000;
  }

  /** The skip count `(page - 1) * size`, computed in 32-bit `int` arithmetic. */
  function PageOffset(page: int, size: int): (r: int)
    requires IsInt32(page) && IsInt32(size)
    ensures IsInt32(r)
    ensures ((page - 1) * size - r) % 0x1_0000_0000 == 0
    ensures IsInt32(page - 1) && IsInt32((page - 1) * size) ==> r == (page - 1) * size
  {
    var a := Wrap32(page - 1);
    ScaledCongruence(page - 1, a, size, Wrap32(a * size));
    Wrap32(a * size)
  }

  /** A page of prefix matches as the database answers it: a negative offset or limit is
      refused with an exception (PostgreSQL rejects a negative OFFSET or LIMIT). */
  function PrefixSearch(users: seq<User>, field: Field, query: string, lower: string -> string, page: int, size: int): (r: Response<SearchBody>)
    requires IsInt32(page) && IsInt32(size)
    ensures r == Fault <==> PageOffset(page, size) < 0 || size < 0
    ensures r != Fault ==> r.Ok? && r.value.Listing? && |r.value.users| <= size
    ensures r != Fault ==> r.value.users == PrefixPage(users, field, query, lower, PageOffset(page, size), size)
  {
    var skip := PageOffset(page, size);
    if skip < 0 || size < 0 then Fault else Ok(Listing(PrefixPage(users, field, query, lower, skip, size)))
  }

  /** Search with the guard, then the first present criterion in the order id, email,
      user name, tag, display name, whatever its length. */
  function SearchUsers(users: seq<User>, q: SearchQuery, lower: string -> string): (r: Response<SearchBody>)
    requires IsInt32(q.page) && IsInt32(q.size)
    ensures !GuardPasses(q) <==> r == Ok(NoCriteria)
    ensures r.Ok? || r == NotFound || r == Fault
    ensures GuardPasses(q) && q.id.Some? ==>
      (r == NotFound <==> forall i :: 0 <= i < |users| ==> users[i].id != q.id.value) &&
      (r.Ok? ==> r.value.Single? && FirstWhere(users, (u: User) => u.id == q.id.value) == Some(r.value.user)
                 && r.value.user in users && r.value.user.id == q.id.value)
    ensures GuardPasses(q) && q.id.None? && q.email.Some? ==>
      (r == NotFound <==> forall i :: 0 <= i < |users| ==> users[i].email != q.email.value) &&
      (r.Ok? ==> r.value.Single? && FirstWhere(users, (u: User) => u.email == q.email.value) == Some(r.value.user)
                 && r.value.user in users && r.value.user.email == q.email.value)
    ensures r == Fault <==>
      GuardPasses(q) && q.id.None? && q.email.None? && (PageOffset(q.page, q.size) < 0 || q.size < 0)
    ensures GuardPasses(q) && q.id.None? && q.email.None? && q.username.Some? ==>
      r == PrefixSearch(users, UserNameField, q.username.value, lower, q.page, q.size)
    ensures GuardPasses(q) && q.id.None? && q.email.None? && q.username.None? && q.tag.Some? ==>
      r == PrefixSearch(users, TagField, q.tag.value, lower, q.page, q.size)
    ensures GuardPasses(q) && q.id.None? && q.email.None? && q.username.None? && q.tag.None? ==>
      r == PrefixSearch(users, DisplayNameField, q.displayname.value, lower, q.page, q.size)
  {
    if !GuardPasses(q) then Ok(NoCriteria)
    else if q.id.Some? then
      var user := FirstWhere(users, (u: User) => u.id == q.id.value);
      if user.None? then NotFound else Ok(Single(user.value))
    else if q.email.Some? then
      var user := FirstWhere(users, (u: User) => u.email == q.email.value);
      if user.None? then NotFound else Ok(Single(user.value))
    else if q.username.Some? then
      PrefixSearch(users, UserNameField, q.username.value, lower, q.page, q.size)
    else if q.tag.Some? then
      PrefixSearch(users, TagField, q.tag.value, lower, q.page, q.size)
    else if q.displayname.Some? then
      PrefixSearch(users, DisplayNameField, q.displayname.value, lower, q.page, q.size)
    else
      assert false; BadRequest
  }

  /** A short id still takes priority: with a two-character id and a long user name the
      guard passes on the user name, yet the answer is an id lookup. */
  lemma ShortIdShadowsUserName(users: seq<User>, lower: string -> string)
    requires forall i :: 0 <= i < |users| ==> users[i].id != "ab"
    ensures SearchUsers(users, SearchQuery(Some("alice"), None, None, Some("ab"), None, 1, 10), lower) == NotFound
  {
  }

  /** The i-th listed user is match number skip + i. */
  lemma PrefixPageIsSliceOfMatches(users: seq<User>, field: Field, query: string, lower: string -> string, skip: nat, take: nat, i: int)
    requires 0 <= i < |PrefixPage(users, field, query, lower, skip, take)|
    ensures skip + i < |Matches(users, field, query, lower)|
    ensures PrefixPage(users, field, query, lower, skip, take)[i] == Matches(users, field, query, lower)[skip + i]
  {
  }

  /** Page 65537 of size 65536 wraps to offset 0: the answer is the first page. */
  lemma LargePageWrapsToFirstPage(users: seq<User>, lower: string -> string)
    ensures SearchUsers(users, SearchQuery(Some("ali"), None, None, None, None, 65537, 65536), lower)
         == SearchUsers(users, SearchQuery(Some("ali"), None, None, None, None, 1, 65536), lower)
  {
    assert PageOffset(65537, 65536) == 0;
  }

  /** Page 3 of size 2^30 wraps to a negative offset, which the database refuses. */
  lemma OverflowingOffsetFaults(users: seq<User>, lower: string -> string)
    ensures SearchUsers(users, SearchQuery(Some("ali"), None, None, None, None, 3, 0x4000_0000), lower) == Fault
  {
    assert PageOffset(3, 0x4000_0000) == -0x8000_0000;
  }

  /** A page number below one gives a negative offset for any positive size. */
  lemma PageZeroFaults(users: seq<User>, lower: string -> string, size: int)
    requires 0 < size < 0x8000_0000
    ensures SearchUsers(users, SearchQuery(Some("ali"), None, None, None, None, 0, size), lower) == Fault
  {
  }

  /** The profile answer; its display name is filled from the user name. */
  datatype UserProfileResponse = UserProfileResponse(
    id: string,
    email: string,
    userName: string,
    displayName: string,
    tag: string,
    avatarUrl: Option<string>,
    bannerUrl: Option<string>,
    bannerColor: Option<string>,
    roles: seq<string>)

  /** The profile of a user: its stored fields, its user name in place of the display name,
      and the given roles. */
  function ProfileOf(u: User, roles: seq<string>): (p: UserProfileResponse)
    ensures p.id == u.id && p.email == u.email && p.userName == u.userName && p.tag == u.tag
    ensures p.displayName == u.userName
    ensures p.avatarUrl == u.avatarUrl && p.bannerUrl == u.bannerUrl && p.bannerColor == u.bannerColor
    ensures p.roles == roles
  {
    UserProfileResponse(u.id, u.email, u.userName, u.userName, u.tag, u.avatarUrl, u.bannerUrl, u.bannerColor, roles)
  }

  /** The editable profile fields. */
  datatype EditUserProfileDto = EditUserProfileDto(displayName: string, bannerColor: Option<string>, status: Option<string>)

  /** The user with the display name, banner colour and status replaced. */
  function Edited(u: User, dto: EditUserProfileDto): (v: User)
    ensures v.id == u.id && v.userName == u.userName && v.email == u.email && v.tag == u.tag
    ensures v.avatarUrl == u.avatarUrl && v.bannerUrl == u.bannerUrl
    ensures v.displayName == dto.displayName && v.bannerColor == dto.bannerColor && v.status == dto.status
  {
    u.(displayName := dto.displayName, bannerColor := dto.bannerColor, status := dto.status)
  }

  /** The caller's own profile; `caller` is the identifier claim of the request. */
  function GetMyProfile(um: UserManager, caller: Option<string>): (r: Response<UserProfileResponse>)
    reads um
    ensures r.Ok? <==> caller.Some? && caller.value in um.users
    ensures !r.Ok? ==> r == Unauthorized
    ensures r.Ok? ==>
      var u := um.users[caller.value];
      && r.value.id == u.id && r.value.email == u.email && r.value.tag == u.tag
      && r.value.userName == u.userName && r.value.displayName == u.userName
      && r.value.avatarUrl == u.avatarUrl && r.value.bannerUrl == u.bannerUrl
      && r.value.bannerColor == u.bannerColor && r.value.roles == um.RolesOf(u)
  {
    if caller.None? || caller.value !in um.users then Unauthorized
    else
      var u := um.users[caller.value];
      Ok(ProfileOf(u, um.RolesOf(u)))
  }

  /** Any user's profile by id. */
  function GetProfile(um: UserManager, userId: string): (r: Response<UserProfileResponse>)
    reads um
    requires um.Valid()
    ensures r.Ok? <==> userId in um.users
    ensures !r.Ok? ==> r == NotFound
    ensures r.Ok? ==>
      var u := um.users[userId];
      && r.value.id == userId && r.value.email == u.email && r.value.tag == u.tag
      && r.value.userName == u.userName && r.value.displayName == u.userName
      && r.value.avatarUrl == u.avatarUrl && r.value.bannerUrl == u.bannerUrl
      && r.value.bannerColor == u.bannerColor && r.value.roles == um.RolesOf(u)
  {
    if userId !in um.users then NotFound
    else
      var u := um.users[userId];
      Ok(ProfileOf(u, um.RolesOf(u)))
  }

  /** Edit the caller's display name, banner colour and status. */
  method EditProfileSelf(um: UserManager, caller: Option<string>, dto: EditUserProfileDto)
    returns (r: Response<UserProfileResponse>)
    requires um.Valid()
    modifies um
    ensures um.Valid()
    ensures um.byName == old(um.byName) && um.byEmail == old(um.byEmail)
    ensures um.roles == old(um.roles) && um.passwordHashes == old(um.passwordHashes)
    ensures r.Ok? <==> caller.Some? && caller.value in old(um.users)
    ensures !r.Ok? ==> r == Unauthorized && um.users == old(um.users)
    ensures r.Ok? ==>
      && um.users == old(um.users)[caller.value := Edited(old(um.users)[caller.value], dto)]
      && r == GetMyProfile(um, caller)
  {
    if caller.None? || caller.value !in um.users { return Unauthorized; }
    var user := Edited(um.users[caller.value], dto);
    um.Update(user);
    r := Ok(ProfileOf(user, um.RolesOf(user)));
  }

  /** An administrator edits any user's display name, banner colour and status; an unknown
      id is answered with Unauthorized. */
  method EditProfile(um: UserManager, userId: string, dto: EditUserProfileDto)
    returns (r: Response<UserProfileResponse>)
    requires um.Valid()
    modifies um
    ensures um.Valid()
    ensures um.byName == old(um.byName) && um.byEmail == old(um.byEmail)
    ensures um.roles == old(um.roles) && um.passwordHashes == old(um.passwordHashes)
    ensures r.Ok? <==> userId in old(um.users)
    ensures !r.Ok? ==> r == Unauthorized && um.users == old(um.users)
    ensures r.Ok? ==>
      && um.users == old(um.users)[userId := Edited(old(um.users)[userId], dto)]
      && r == GetProfile(um, userId)
  {
    if userId !in um.users { return Unauthorized; }
    var user := Edited(um.users[userId], dto);
    um.Update(user);
    r := Ok(ProfileOf(user, um.RolesOf(user)));
  }
}
